=== FILE: README.md ===
# sneklang core in Dafny

This project models three parts of sneklang, a small interpreted scripting
language written in C, and proves properties of each.

- **The garbage collector** (`src/vm/gc.c`). It runs a synchronous mark, trace
  and sweep over the VM's object registry.
  - Mark flags every object named by a call frame's references.
  - Trace follows Vector3 and Array slots from the marked registry entries.
  - Sweep compacts the registry down to the marked objects and clears their
    flags.
- **The lexer** (`src/lexer/lexer.c`). It turns source text into tokens one
  `lexer_next_token` call at a time.
- **The parser** (`src/parser/parser.c`). It is a recursive-descent parser that
  builds an AST of literals, binary and unary operators, variables,
  assignments and typed declarations.

Modules:

| module | contents |
|---|---|
| `Wrappers` | `Option` and `Result` |
| `Heap` | The object table and objects' reference slots. Reachability along reference paths. |
| `Gc` | `mark`, `trace`, `trace_blacken_object`, `trace_mark_object`, `sweep` and `vm_collect_garbage` |
| `GcProperties` | A collection keeps exactly the reachable registry entries, preserves the VM invariant and is idempotent. It also holds small scenarios. |
| `Lexer` and `LexerProperties` | The scanner and what each kind of token looks like |
| `Parser` and `ParserProperties` | The parse functions and the trees they build |
| `Rendering` | The fully parenthesised token spelling of a tree, used to state that parsing inverts it |

How the C constructs are represented:

- **Heap objects.** A C object pointer is a `Handle`, which is an index into a
  table of objects.
- **Freeing.** Freeing an object removes it from the registry (`vm->objects`).
  The table itself never shrinks.
- **The token stream.** The parser works on a token sequence ending in EOF, with
  a cursor. The sequence is lexed in full before parsing, where the C parser
  lexes one token each time it advances.
- **NULL.** Every parse function returns the node it built together with the
  cursor it left behind. The node is `None` where the C code returns NULL. A
  NULL result does not move the cursor back.
- **AST children.** They are `Option`s, because `parse_expression` and
  `parse_term` build a binary node even when their left operand is NULL.
- **Fatal lexer errors.** `exit(1)` becomes a `Failure(LexError)` result.
- **Allocation.** It is assumed to succeed, so each AST and token constructor is
  a datatype constructor.

Behaviour the model keeps as the code has it:

- **Variables are not consumed.** A variable in factor position is not consumed
  (`parser.c:369-370`). After `y = x` the token `x` is still current, so
  `parse_root` reads it as the start of a new statement, which fails.
  `ParserProperties.VariableReferenceFails` states this.
- **Missing left operands are accepted.** `+ 1` parses as a `+` node with a NULL
  left child (`ParserProperties.MissingLeftOperand`).
- **An unreferenced object is freed.** A VM test (`tests/test_vm.c`, which is
  not part of this model) creates an `Integer(42)`, collects, and expects the
  object to survive. That expectation depends on `vm_new` and
  `new_snek_integer`, which this model does not cover.
  `GcProperties.ScenarioUnrootedInteger` states what `gc.c` does with an object
  that no frame references: the collection frees it.
- **The line number never advances.** `lexer->line` is set to 1 and never
  incremented, so every token carries line 1.

Where the code and its own tests disagree, the model follows the code:

- **Block markers.** The full-script lexer test (`tests/test_lexer.c:105-183`)
  expects INDENT and DEDENT tokens around indented lines, and COLON tokens.
  `lexer.c` produces none of them. Leading spaces are skipped as blanks, and
  ':' is an unknown character, which is a fatal error. `COLON` and `BANG` are
  tested by the parser but never produced by the lexer.

## Model

| member | source | states |
|---|---|---|
| Gc.MarkRoot | src/vm/gc.c:31-59 | A NULL root, a root outside the table and an already marked root change nothing. Otherwise exactly the named object becomes marked. No object's payload changes. |
| Gc.MarkSlots | src/vm/gc.c:31-59 | After one frame's reference list, an object is marked exactly when it was marked before or one of the references names it. |
| Gc.MarkFrames | src/vm/gc.c:19-60 | After all frames, an object is marked exactly when it was marked before or it is a root of some frame. NULL frames and frames without a reference list contribute no roots and do not stop the loop. |
| Gc.Mark | src/vm/gc.c:13-61 | Marks are only ever set. A missing VM, frame list or registry leaves every flag as it was. Otherwise an object ends up marked exactly when it was marked or is a root. |
| Gc.BlackenSlots | src/vm/gc.c:83-109 | Blackening the slots of one object changes no object's payload. |
| Gc.TraceMarkObject | src/vm/gc.c:111-117 | A NULL or already marked object changes nothing. Any other object is marked and pushed once onto the gray stack. |
| Gc.BlackenPushes | src/vm/gc.c:83-109 | Blackening pushes only objects that were unmarked and that a slot of the object names, and none of them twice. |
| Gc.BlackenMarks | src/vm/gc.c:83-109 | After blackening, every non-NULL child is marked. An object is marked exactly when it was marked before or was pushed. |
| Gc.UnmarkedShrinks | src/vm/gc.c:111-117 | Each push removes an object from the set of unmarked objects. This makes the trace loop terminate. |
| Gc.TraceWork | src/vm/gc.c:76-78 | The drain loop terminates, keeps every payload and only sets marks. |
| Gc.TraceWorkCorrect | src/vm/gc.c:76-78 | When the gray stack is empty, every object that was gray or became marked has all its children marked. Every newly marked object is reachable from the initial gray objects. |
| Gc.NextGrayReachable | src/vm/gc.c:76-117 | After one iteration of the trace loop, every object on the gray stack is reachable from the stack before it. |
| Gc.MarkedEntries | src/vm/gc.c:119-131 | The survivors of a sweep are exactly the registry entries that are marked, and there are no more of them than entries. |
| Gc.MarkedEntriesAppend | src/vm/gc.c:121-129 | Keeping the marked entries distributes over concatenation, so survivors stay in their original relative order. |
| Gc.MarkedEntriesNoDup | src/vm/gc.c:119-131 | A registry without duplicates sweeps to survivors without duplicates. |
| Gc.Trace | src/vm/gc.c:63-81 | Tracing starts from the marked registry entries. Afterwards the marked set is closed under children from those entries. Every mark it adds is reachable from them. |
| Gc.ClearMarks | src/vm/gc.c:123-125 | The sweep clears the flag of every registry entry and leaves every other object's flag as it was. |
| Gc.Sweep | src/vm/gc.c:119-131 | The survivors are exactly the marked registry entries, and none is duplicated when the registry holds no duplicate. Exactly the registry entries lose their flag, and no payload changes. |
| Gc.SweepInPlace | src/vm/gc.c:119-131 | The compacting loop leaves exactly the marked entries, in their original order, and its count is the number of survivors. Registry entries end unmarked and no other flag or payload changes. |
| Gc.SweepStep | src/vm/gc.c:121-129 | One iteration appends the entry to the survivors exactly when it is marked. An entry not yet visited still has its original flag. |
| Gc.SweepEntry | src/vm/gc.c:121-129 | One iteration keeps the entry, and clears its flag, exactly when it is marked. It leaves the unvisited entries in place. |
| Gc.Collect | src/vm/gc.c:7-11 | A collection leaves the frames as they were. The registry shrinks to a duplicate-free subset that keeps every registered root and every registered child of a survivor, with all survivors unmarked. |
| Gc.CollectKeeps | src/vm/gc.c:7-11 | Registered roots and registered children of survivors are among the marked entries after mark and trace. |
| GcProperties.LiveEntries | src/vm/gc.c:119-131 | Reference definition of the survivors: the registry entries reachable from the roots, in registry order. |
| GcProperties.MarkedIsLive | src/vm/gc.c:119-131 | If an entry is marked exactly when it is reachable, the sweep keeps exactly the live entries. |
| GcProperties.AllLive | src/vm/gc.c:119-131 | If every entry is reachable, the sweep keeps the whole registry. |
| GcProperties.ReachableIsRegistered | src/vm/gc.c:63-81 | When roots and children are registered, everything reachable from the roots is registered. |
| GcProperties.MarkedAfterMark | src/vm/gc.c:13-61 | From an unmarked heap, mark flags exactly the roots, and the marked registry entries are the root set. |
| GcProperties.TracedAreReachable | src/vm/gc.c:63-81 | After mark and trace, every marked object is reachable from a root. |
| GcProperties.ReachableAreTraced | src/vm/gc.c:63-81 | If a marked set contains the roots and is closed under children, it contains everything reachable from them. |
| GcProperties.MarkedIffReachable | src/vm/gc.c:13-81 | After mark and trace, an object is marked if and only if it is reachable from a root. |
| GcProperties.CollectCharacterization | src/vm/gc.c:7-11 | A collection sets the registry to exactly the entries reachable from the roots, in their original order. It leaves no object marked and changes no frame or payload. |
| GcProperties.CollectKeepsExactlyReachable | src/vm/gc.c:7-11 | An object survives a collection if and only if it was registered and reachable from a root. |
| GcProperties.CollectPreservesConsistent | src/vm/gc.c:7-11 | A collection preserves the invariant that roots and children are registered, without duplicates, with nothing marked. The root set is unchanged. |
| GcProperties.SurvivorsHoldRoots | src/vm/gc.c:7-11 | Every root survives a collection. |
| GcProperties.SurvivorsHoldChildren | src/vm/gc.c:7-11 | Every child of a survivor survives. |
| GcProperties.CollectIdempotent | src/vm/gc.c:7-11 | A second collection with no change in between returns the same registry and heap. |
| GcProperties.CollectWithoutRootsFreesAll | src/vm/gc.c:7-11 | With no frames, or only frames without references, a collection empties the registry. |
| GcProperties.ScenarioUnrootedInteger | src/vm/gc.c:7-11 | An unreferenced integer is freed. |
| GcProperties.ArrayScenarioConsistent | src/vm/gc.c:83-109 | In the scenario heap, the array's children are the three integers and the frame's only root is the array. |
| GcProperties.ArrayAllLive | src/vm/gc.c:83-109 | Everything in the scenario registry is reachable from the array. |
| GcProperties.ScenarioRootedArray | src/vm/gc.c:7-11 | An array referenced by a frame keeps itself and its three elements alive. |
| GcProperties.ScenarioPoppedArray | src/vm/gc.c:7-11 | Once the frame is gone, the next collection frees the array and its elements. |
| Lexer.Peek | src/lexer/lexer.c:39-43 | The result is NUL exactly at the end of the text or at a NUL character. Otherwise it is the character at the cursor. |
| Lexer.SkipWhitespace | src/lexer/lexer.c:46-52 | Skipping stops at the first character that is not a space, tab or carriage return, and everything skipped is one of those. A newline is not skipped. |
| Lexer.ScanNumber | src/lexer/lexer.c:161-168 | The number loop consumes only digits and at most one '.', and reports a '.' exactly when it consumed one. It stops only where neither a digit nor a first '.' follows. |
| Lexer.ScanString | src/lexer/lexer.c:110-113 | The string loop stops at the first '"' or at the end of the text, and consumes no quote. |
| Lexer.Number | src/lexer/lexer.c:153-179 | The lexeme runs from the token start over the digits and at most one '.' after it, and no digit follows it. The kind is FLOAT exactly when a '.' was consumed, and INT otherwise. An INT is not followed by a '.'. |
| Lexer.ScanWord | src/lexer/lexer.c:137-140 | The identifier loop consumes the maximal run of letters, digits and '_'. |
| Lexer.NextToken | src/lexer/lexer.c:55-151 | A successful call never moves backwards or past the text, and every token carries line 1. Every token other than EOF consumes at least one character. |
| Lexer.Tokenize | src/parser/parser.c:46-57 | The tokens a successful parse pulls, lexed up to EOF, form a stream whose last token is its only EOF. The stream starts with the first call's token, and a lexer error in the first call ends the run with that error. It requires only that each token the calls actually scan fits its buffer. Text inside a string literal is never scanned as a token. |
| LexerProperties.SkipWhitespaceIdempotent | src/lexer/lexer.c:46-52 | Skipping blanks twice is skipping them once. |
| LexerProperties.LexSkipsBlanks | src/lexer/lexer.c:57-60 | Blanks before a token do not change the token. |
| LexerProperties.SameStartSameToken | src/lexer/lexer.c:55-60 | Two calls whose blanks end at the same position return the same token or error. |
| LexerProperties.LexSpelling | src/lexer/lexer.c:55-179 | The consumed text is exactly the token's spelling: the lexeme, with quotes around a string and '\n' for an EOL. |
| LexerProperties.LexNewline | src/lexer/lexer.c:87-88 | A newline yields an EOL token with an empty lexeme and is consumed. |
| LexerProperties.LexPunctuation | src/lexer/lexer.c:65-86 | Each of `+ * / ( ) [ ] > < , =` yields its kind with a one-character lexeme. |
| LexerProperties.PunctKindsDistinct | src/lexer/lexer.c:65-86 | No two punctuation characters share a kind, and none yields a literal, identifier, end marker or MINUS. |
| LexerProperties.TokenizeSpellsOut | src/lexer/lexer.c:55-179 | A successful stream spells out the text. Each token follows the blanks the lexer skips, its spelling is the text right after them, and the final EOF sits at the end of the text or at a NUL. No character is dropped or repeated. |
| LexerProperties.TokenizeStep | src/parser/parser.c:46-57 | A successful stream is the first call's token followed by the stream from where that call stopped, or that token alone when it is EOF. |
| LexerProperties.ScanStringStops | src/lexer/lexer.c:110-113 | The string loop stops exactly at the first '"' when no NUL comes before it. |
| LexerProperties.LoneString | src/lexer/lexer.c:105-128 | A quoted text of up to 255 characters without '"' or NUL tokenizes to one STRING holding that text, then EOF. |
| LexerProperties.LexEof | src/lexer/lexer.c:89-90 | The lexer returns EOF, without moving past the blanks, exactly when the next non-blank character is NUL or the text has ended. |
| LexerProperties.LexEofSticks | src/lexer/lexer.c:89-90 | At the end of the text, or at a NUL, the lexer returns EOF without moving past the blanks, so the next call returns EOF again. |
| LexerProperties.LexNumber | src/lexer/lexer.c:153-179 | A digit starts a number. Its lexeme is exactly the maximal run of digits with at most one '.', and it is FLOAT exactly when the lexeme holds a '.'. |
| LexerProperties.NextIsNumber | src/lexer/lexer.c:92-103 | A digit, or a '-' before a digit, makes the lexer scan a number from the token start. |
| LexerProperties.NumberRun | src/lexer/lexer.c:153-179 | A number lexeme starts at the token start. After its first character it runs over digits and at most one '.'. It is FLOAT exactly when it holds a '.', and no digit follows it. |
| LexerProperties.LexMinus | src/lexer/lexer.c:92-97 | A '-' followed by a digit starts a number whose lexeme keeps the '-'. Otherwise it is a MINUS token. |
| LexerProperties.LexString | src/lexer/lexer.c:105-128 | The lexer fails exactly when no closing quote follows, and the error is an unterminated string. Otherwise the lexeme is the text between the quotes. |
| LexerProperties.LexIdentifier | src/lexer/lexer.c:131-144 | An identifier starts with a letter or '_' and runs over every following letter, digit and '_'. |
| LexerProperties.LexUnknown | src/lexer/lexer.c:146-149 | A character that starts no token is a fatal unknown-character error. |
| Parser.Advance | src/parser/parser.c:46-57 | Advancing never moves past the final EOF. |
| Parser.Expression | src/parser/parser.c:286-312 | The cursor stays in the stream. A successful expression that consumed nothing is a lone identifier. Any NULL left in the result tree is a left operand. |
| Parser.ExprTail | src/parser/parser.c:289-309 | When no `+` or `-` follows, the loop returns the node so far at the same cursor. When the term after the operator is NULL, the result is NULL. |
| Parser.Term | src/parser/parser.c:314-335 | Same as `Expression`, for `*` and `/`. |
| Parser.TermTail | src/parser/parser.c:317-332 | When no `*` or `/` follows, the loop returns the node so far at the same cursor. When the factor after the operator is NULL, the result is NULL. |
| Parser.Factor | src/parser/parser.c:337-375 | The cursor stays in the stream. A factor that succeeds without consuming is a variable. |
| Parser.Unary | src/parser/parser.c:358-368 | A unary operator always consumes its token. The result is NULL exactly when the factor after it is NULL. |
| Parser.AssignmentStatement | src/parser/parser.c:217-284 | A statement that does not start with an identifier is NULL and consumes nothing. Otherwise the identifier is consumed. |
| Parser.Statement | src/parser/parser.c:193-215 | A successful statement always consumes tokens, so `parse_root` makes progress. |
| Parser.SkipEols | src/parser/parser.c:174-176 | Skips exactly the EOLs in front of the next token. |
| Parser.Root | src/parser/parser.c:169-191 | Statements already collected remain a prefix of the result. When the only NULL children of those are left operands, the same holds for every statement of the result. |
| Parser.ParseProgram | src/parser/parser.c:169-191 | A token stream that starts with EOF is the empty program. In every statement of a parsed program, the only NULL children are left operands. |
| ParserProperties.AdvanceSticksAtEof | src/parser/parser.c:46-49 | Once the current token is EOF, any number of advances leaves the cursor where it is. |
| ParserProperties.AdvanceReachesEof | src/parser/parser.c:46-57 | Advancing moves one token at a time until it reaches EOF. Enough advances always land on EOF. |
| ParserProperties.LiteralFactor | src/parser/parser.c:340-342 | An INT token is a Literal with the token's value and is consumed. |
| ParserProperties.UnaryFactor | src/parser/parser.c:358-368 | A `-` or `!` wraps the factor after it. |
| ParserProperties.SumStep | src/parser/parser.c:289-309 | One `+`/`-` round whose right operand is a lone factor joins it to the node built so far. |
| ParserProperties.TermProduct | src/parser/parser.c:314-335 | `l * r` or `l / r` followed by no `*` or `/` is one term, the binary node of its operands. |
| ParserProperties.ParenthesisedBinary | src/parser/parser.c:343-357 | A parenthesised binary expression is the binary node, with the ')' consumed. |
| ParserProperties.FactorParsesRender | src/parser/parser.c:337-375 | Parsing inverts rendering: the tokens of a fully parenthesised tree parse back to that tree and are consumed exactly. |
| ParserProperties.ChainAdditiveAdditive | src/parser/parser.c:286-312 | `a + b - c` groups as `(a + b) - c`. |
| ParserProperties.ChainMultiplicativeMultiplicative | src/parser/parser.c:314-335 | `a * b / c` groups as `(a * b) / c`. |
| ParserProperties.ChainAdditiveMultiplicative | src/parser/parser.c:286-335 | `a + b * c` groups as `a + (b * c)`. |
| ParserProperties.ChainMultiplicativeAdditive | src/parser/parser.c:286-335 | `a * b + c` groups as `(a * b) + c`. |
| ParserProperties.ThreeOperands | src/parser/parser.c:286-335 | For any two of `+ - * /` between three operands, the tighter operator groups first. Between equals the left one groups first. The cursor stops right after the third operand. |
| ParserProperties.ParenthesesKeepInner | src/parser/parser.c:343-357 | A parenthesised expression is its inner node, unchanged. It is NULL exactly when the inner node is NULL or no ')' follows. |
| ParserProperties.VariableNotConsumed | src/parser/parser.c:369-370 | An identifier in factor position is a Variable and stays the current token. |
| ParserProperties.FactorRejects | src/parser/parser.c:371-373 | Any token other than INT, '(', '-', '!' or IDENTIFIER makes a factor NULL without consuming the token. |
| ParserProperties.UnexpectedTokenFails | src/parser/parser.c:286-375 | An expression starting with a token that starts no factor and is no binary operator is NULL and consumes nothing: the factor's NULL passes through the term and expression loops. |
| ParserProperties.MissingLeftOperand | src/parser/parser.c:286-312 | `+ 1` is a `+` node with a NULL left child, not an error. |
| ParserProperties.DeclarationWithoutValue | src/parser/parser.c:235-263 | `x : T` with no '=' after it is a Declaration without a value, ending after the type. |
| ParserProperties.DeclarationWithValue | src/parser/parser.c:235-263 | `x : T = e` is a Declaration holding `e`, or NULL when `e` is NULL. |
| ParserProperties.AssignmentWithValue | src/parser/parser.c:266-276 | `x = e` is an Assignment holding `e`, or NULL when `e` is NULL. |
| ParserProperties.AssignmentNeedsColonOrEqual | src/parser/parser.c:278-283 | An identifier followed by neither ':' nor '=' is an error, after the identifier is consumed. |
| ParserProperties.StatementConsumesEol | src/parser/parser.c:193-215 | A statement is the assignment or expression it starts with. The cursor moves one past it exactly when an EOL follows, so one trailing EOL is consumed. |
| ParserProperties.RootStep | src/parser/parser.c:172-189 | One loop round parses the statement after the empty lines and stops with NULL if it fails. |
| ParserProperties.RootAccumulates | src/parser/parser.c:169-191 | Parsing with statements already collected is parsing from scratch with those statements in front. |
| ParserProperties.RootSkipsEol | src/parser/parser.c:174-176 | An empty line before a statement changes nothing. |
| ParserProperties.RootInOrder | src/parser/parser.c:183-189 | A program is NULL exactly when one of its statements is. Otherwise it is its first statement followed by the rest, in source order. |
| ParserProperties.RootStopsAtEof | src/parser/parser.c:172-181 | Only EOLs before EOF end the program with the statements collected so far. |
| ParserProperties.ExampleDeclaration | src/parser/parser.c:193-215 | `x : int = 1 + 2 * 3` followed by a newline is the expected declaration, with the EOL consumed. |
| ParserProperties.ExampleAssignment | src/parser/parser.c:193-215 | After an empty line, `y = 4` is an Assignment. |
| ParserProperties.ExampleProgram | src/parser/parser.c:169-191 | The two-statement program parses to both statements, in order. |
| ParserProperties.VariableReferenceFails | src/parser/parser.c:369-370 | `y = x` is NULL as a program, because the unconsumed `x` is read as the start of a second statement. |

## Left out

- `src/core/main.c`: file reading, printing and process setup are I/O only.
- `print_ast`, `print_ast_tree` and `token_print`: these only format output for the console.
- The `fprintf` diagnostics and the malloc-failure paths: allocation is assumed to succeed. The lexer's `exit(1)` paths are modelled as `Failure` results.
- `ast_free_node`, `parser_free`, `lexer_free`, `token_free` and `snek_object_free`: manual deallocation. A freed object only leaves the registry.
- The object constructors, `vm_new`/`vm_free` and the stack: `src/objects/snekobject.h` and `src/stack/stack.h` are not part of this model. The gray stack is a sequence with push and pop at its end.
- The INDENT, DEDENT and COLON tokens that `tests/test_lexer.c:105-183` expects: `lexer.c` does not produce them, and the model follows the code.
- Float values: Float objects are leaves of the object graph, and FLOAT tokens keep their text, so no floating point is modelled.
- Array capacity: only the `size` used slots are modelled, because the collector never reads the rest.
- Gc.Mark: the raw pointer range check (below 0x1000 or above 0x7fffffffffff) becomes "the handle is not in the table". The platform address arithmetic is not modelled.
- Lexer.NextToken: the fixed buffers (64 bytes for numbers and identifiers, 256 for strings) are a precondition, `WithinBuffers`. Overflowing them is undefined behaviour in the C code.
- Lexer.NextToken: the model scans characters, not bytes. The buffer bounds count characters, so a non-ASCII token whose UTF-8 bytes overflow a C buffer is not excluded. An unknown non-ASCII character is reported whole, where the C code reports its first byte.
- Parser.Root: the `MAX_NODES` bound on the node array is not modelled. `parser.c` uses `MAX_NODES` (`parser.c:20`), but neither `parser.c` nor `parser.h` defines it, and the C code never checks it.
- Lexer.Tokenize: the stream is lexed in full before parsing, while the C parser lexes lazily, one token per advance. When a statement fails, `parse_root` stops (`parser.c:183-186`) and the C code never lexes the rest. So a lexer error or an oversized token after the first failing statement makes `Tokenize` fail, or falls outside its precondition, where the C code returns NULL from the parse.
- Parser.ParseProgram: the parser starts at the first token. `parser_new`'s first advance reads an uninitialised `current`, which this model does not represent.
- Parser.PToken: the `integer` value of an INT token is an input of the model. `parser.c:342` reads it, but it is not declared in `lexer.h`, and `lexer.c` never sets it: the lexer keeps a number's text and never decodes its value.
- Gc.Collect: requires the registry to be present and free of duplicates. `trace` and `sweep` dereference `vm->objects` without a check. An unmarked object entered twice would be freed twice. A marked one would keep its first copy, have its flag cleared, and then be freed through its second copy, leaving a freed survivor in the registry.

=== FILE: gc.dfy ===
/** The mark / trace / sweep collector of src/vm/gc.c.

    The VM's frame stack and registry are values; the heap is a `Table` passed
    in and returned. A NULL VM, frame stack, registry, frame, reference
    container or root is `None`. */
module Gc {
  import opened Wrappers
  import opened Heap

  /** A call frame; `references == None` stands for a frame whose reference
      container (or its data buffer) is NULL. */
  datatype Frame = Frame(references: Option<seq<Option<Handle>>>)

  /** `frames` is the frame stack, `objects` the registry of live objects. */
  datatype Vm = Vm(frames: Option<seq<Option<Frame>>>, objects: Option<seq<Handle>>)

  /** The root slots mark visits in a frame: none for a NULL frame or a frame
      without a reference container. */
  function RootSlots(f: Option<Frame>): seq<Option<Handle>>
  {
    if f.Some? && f.value.references.Some? then f.value.references.value else []
  }

  /** `h` is a non-NULL root of some well-formed frame. */
  ghost predicate IsRoot(frames: seq<Option<Frame>>, h: Handle)
  {
    exists i, j :: 0 <= i < |frames| && 0 <= j < |RootSlots(frames[i])| && RootSlots(frames[i])[j] == Some(h)
  }

  // ---------------------------------------------------------------------------
  // Mark

  /** One iteration of mark's inner loop: NULL roots, roots outside the table
      (the invalid-address check) and roots already marked are skipped. */
  function MarkRoot(t: Table, root: Option<Handle>): (r: Table)
    ensures SameValues(t, r)
    ensures forall x | 0 <= x < |t| :: r[x].marked <==> t[x].marked || root == Some(x)
  {
    if root.None? then t
    else if root.value >= |t| then t
    else if t[root.value].marked then t
    else SetMark(t, root.value, true)
  }

  /** Mark's inner loop over the references of one frame. */
  function MarkSlots(t: Table, slots: seq<Option<Handle>>): (r: Table)
    ensures SameValues(t, r)
    ensures forall x | 0 <= x < |t| :: r[x].marked <==> t[x].marked || Some(x) in slots
    decreases |slots|
  {
    if |slots| == 0 then t
    else MarkSlots(MarkRoot(t, slots[0]), slots[1..])
  }

  /** Mark's outer loop over the frame stack. */
  function MarkFrames(t: Table, frames: seq<Option<Frame>>): (r: Table)
    ensures SameValues(t, r)
    ensures forall x | 0 <= x < |t| :: r[x].marked <==> t[x].marked || IsRoot(frames, x)
    decreases |frames|
  {
    if |frames| == 0 then t
    else
      var r := MarkFrames(MarkSlots(t, RootSlots(frames[0])), frames[1..]);
      assert forall x | 0 <= x < |t| :: IsRoot(frames, x) <==> Some(x) in RootSlots(frames[0]) || IsRoot(frames[1..], x) by {
        forall x | 0 <= x < |t|
          ensures IsRoot(frames, x) <==> Some(x) in RootSlots(frames[0]) || IsRoot(frames[1..], x)
        {
          if IsRoot(frames, x) {
            var i, j :| 0 <= i < |frames| && 0 <= j < |RootSlots(frames[i])| && RootSlots(frames[i])[j] == Some(x);
            if i > 0 {
              assert RootSlots(frames[1..][i - 1])[j] == Some(x);
            }
          }
          if Some(x) in RootSlots(frames[0]) {
            var j :| 0 <= j < |RootSlots(frames[0])| && RootSlots(frames[0])[j] == Some(x);
            assert RootSlots(frames[0])[j] == Some(x);
          }
          if IsRoot(frames[1..], x) {
            var i, j :| 0 <= i < |frames[1..]| && 0 <= j < |RootSlots(frames[1..][i])| && RootSlots(frames[1..][i])[j] == Some(x);
            assert RootSlots(frames[i + 1])[j] == Some(x);
          }
        }
      }
      r
  }

  /** The mark phase: set the flag of every valid root of every well-formed
      frame; flags are never cleared. A missing VM, frame stack or registry
      leaves the table as it is. */
  function Mark(vm: Option<Vm>, t: Table): (r: Table)
    ensures SameValues(t, r)
    ensures forall x | 0 <= x < |t| :: t[x].marked ==> r[x].marked
    ensures vm.None? || vm.value.frames.None? || vm.value.objects.None? ==> r == t
    ensures vm.Some? && vm.value.frames.Some? && vm.value.objects.Some? ==>
              forall x | 0 <= x < |t| :: r[x].marked <==> t[x].marked || IsRoot(vm.value.frames.value, x)
  {
    if vm.None? || vm.value.frames.None? || vm.value.objects.None? then t
    else MarkFrames(t, vm.value.frames.value)
  }

  // ---------------------------------------------------------------------------
  // Trace

  /** `trace_mark_object`: a NULL or already marked object is ignored; any other
      object is marked and pushed on the gray stack. */
  function TraceMarkObject(t: Table, gray: seq<Handle>, obj: Option<Handle>): (r: (Table, seq<Handle>))
    requires obj.Some? ==> obj.value < |t|
    ensures SameValues(t, r.0)
    ensures obj.None? || t[obj.value].marked ==> r == (t, gray)
    ensures obj.Some? && !t[obj.value].marked ==> r.1 == gray + [obj.value] && r.0 == SetMark(t, obj.value, true)
  {
    if obj.None? || t[obj.value].marked then (t, gray)
    else (SetMark(t, obj.value, true), gray + [obj.value])
  }

  /** `trace_blacken_object` over the reference slots of one object, in order;
      the result is the updated table and the objects pushed on the gray stack. */
  function BlackenSlots(t: Table, slots: seq<Option<Handle>>): (r: (Table, seq<Handle>))
    requires SlotsIn(t, slots)
    ensures SameValues(t, r.0)
    decreases |slots|
  {
    if |slots| == 0 then (t, [])
    else
      var s := TraceMarkObject(t, [], slots[0]);
      var r := BlackenSlots(s.0, slots[1..]);
      (r.0, s.1 + r.1)
  }

  /** The objects blackening pushes were unmarked before, come from the slots,
      and are pushed once each. */
  lemma {:induction false} BlackenPushes(t: Table, slots: seq<Option<Handle>>)
    requires SlotsIn(t, slots)
    ensures var r := BlackenSlots(t, slots);
      && (forall k | 0 <= k < |r.1| :: r.1[k] < |t| && !t[r.1[k]].marked && Some(r.1[k]) in slots)
      && NoDup(r.1)
    decreases |slots|
  {
    if |slots| > 0 {
      var s := TraceMarkObject(t, [], slots[0]);
      BlackenPushes(s.0, slots[1..]);
      BlackenMarks(s.0, slots[1..]);
      var r := BlackenSlots(s.0, slots[1..]);
      assert forall k | 0 <= k < |r.1| :: Some(r.1[k]) in slots[1..] && r.1[k] !in s.1;
    }
  }

  /** Blackening marks exactly the objects it pushes, and leaves every non-NULL
      slot marked. */
  lemma {:induction false} BlackenMarks(t: Table, slots: seq<Option<Handle>>)
    requires SlotsIn(t, slots)
    ensures var r := BlackenSlots(t, slots);
      && (forall x | 0 <= x < |t| :: r.0[x].marked <==> t[x].marked || x in r.1)
      && (forall k | 0 <= k < |slots| && slots[k].Some? :: r.0[slots[k].value].marked)
    decreases |slots|
  {
    if |slots| > 0 {
      var s := TraceMarkObject(t, [], slots[0]);
      BlackenMarks(s.0, slots[1..]);
      assert forall k | 1 <= k < |slots| :: slots[1..][k - 1] == slots[k];
    }
  }

  /** The tracing loop: pop the top of the gray stack and blacken it until the
      stack is empty. It terminates because every push marks an object that was
      unmarked, so an object is pushed at most once. */
  function TraceWork(t: Table, gray: seq<Handle>): (r: Table)
    requires Closed(t)
    requires AllValid(t, gray)
    requires forall k | 0 <= k < |gray| :: t[gray[k]].marked
    ensures SameValues(t, r)
    ensures forall x | 0 <= x < |t| :: t[x].marked ==> r[x].marked
    decreases UnmarkedSet(t), |gray|
  {
    if |gray| == 0 then t
    else
      var top := gray[|gray| - 1];
      assert SlotsIn(t, Slots(t[top].value));
      var b := BlackenSlots(t, Slots(t[top].value));
      BlackenPushes(t, Slots(t[top].value));
      BlackenMarks(t, Slots(t[top].value));
      UnmarkedShrinks(t, b.0, b.1);
      var g1 := gray[..|gray| - 1] + b.1;
      PoppedGrayMarked(t, gray, b.0, b.1, g1);
      TraceWork(b.0, g1)
  }

  /** The stack after one iteration holds valid, marked objects. */
  lemma PoppedGrayMarked(t: Table, gray: seq<Handle>, t1: Table, pushed: seq<Handle>, g1: seq<Handle>)
    requires |gray| > 0 && g1 == gray[..|gray| - 1] + pushed
    requires AllValid(t, gray) && SameValues(t, t1)
    requires forall k | 0 <= k < |gray| :: t[gray[k]].marked
    requires forall k | 0 <= k < |pushed| :: pushed[k] < |t|
    requires forall x | 0 <= x < |t| :: t1[x].marked <==> t[x].marked || x in pushed
    ensures AllValid(t1, g1)
    ensures forall k | 0 <= k < |g1| :: t1[g1[k]].marked
  {
    forall k | 0 <= k < |g1|
      ensures g1[k] < |t1| && t1[g1[k]].marked
    {
      if k < |gray| - 1 {
        assert g1[k] == gray[k];
      } else {
        assert g1[k] == pushed[k - |gray| + 1];
      }
    }
  }

  /** What tracing achieves: every object that was on the stack or got marked
      has all its children marked, and every object it marked is reachable from
      the objects initially on the stack. */
  lemma {:induction false} TraceWorkCorrect(t: Table, gray: seq<Handle>)
    requires Closed(t)
    requires AllValid(t, gray)
    requires forall k | 0 <= k < |gray| :: t[gray[k]].marked
    ensures var r := TraceWork(t, gray);
      && (forall x | 0 <= x < |t| && r[x].marked && (x in gray || !t[x].marked) :: ChildrenMarked(r, x))
      && (forall x | 0 <= x < |t| && r[x].marked && !t[x].marked :: Reaches(t, Elems(gray), x))
    decreases UnmarkedSet(t), |gray|
  {
    if |gray| > 0 {
      var top := gray[|gray| - 1];
      assert SlotsIn(t, Slots(t[top].value));
      var b := BlackenSlots(t, Slots(t[top].value));
      BlackenPushes(t, Slots(t[top].value));
      BlackenMarks(t, Slots(t[top].value));
      UnmarkedShrinks(t, b.0, b.1);
      var g1 := gray[..|gray| - 1] + b.1;
      PoppedGrayMarked(t, gray, b.0, b.1, g1);
      TraceWorkCorrect(b.0, g1);
      var r := TraceWork(b.0, g1);
      assert r == TraceWork(t, gray);
      TraceStepClosure(t, gray, Slots(t[top].value), b.0, b.1, r);
      TraceStepReach(t, gray, b.0, b.1, r);
    }
  }

  /** Marking the pushed objects removes exactly them from the unmarked set. */
  lemma UnmarkedShrinks(t: Table, t1: Table, pushed: seq<Handle>)
    requires SameValues(t, t1)
    requires forall x | 0 <= x < |t| :: t1[x].marked <==> t[x].marked || x in pushed
    requires forall k | 0 <= k < |pushed| :: pushed[k] < |t| && !t[pushed[k]].marked
    ensures UnmarkedSet(t1) <= UnmarkedSet(t)
    ensures |pushed| > 0 ==> UnmarkedSet(t1) < UnmarkedSet(t)
    ensures |pushed| == 0 ==> UnmarkedSet(t1) == UnmarkedSet(t)
  {
    if |pushed| > 0 {
      assert pushed[0] in UnmarkedSet(t) && pushed[0] !in UnmarkedSet(t1);
    }
  }

  /** One iteration of the tracing loop keeps the closure promise of TraceWork. */
  lemma TraceStepClosure(t: Table, gray: seq<Handle>, slots: seq<Option<Handle>>, t1: Table, pushed: seq<Handle>, r: Table)
    requires Closed(t) && |gray| > 0 && AllValid(t, gray)
    requires slots == Slots(t[gray[|gray| - 1]].value) && SlotsIn(t, slots)
    requires SameValues(t, t1)
    requires forall x | 0 <= x < |t| :: t1[x].marked <==> t[x].marked || x in pushed
    requires forall k | 0 <= k < |slots| && slots[k].Some? :: t1[slots[k].value].marked
    requires SameValues(t1, r)
    requires forall x | 0 <= x < |t1| :: t1[x].marked ==> r[x].marked
    requires forall x | 0 <= x < |t1| && r[x].marked && (x in gray[..|gray| - 1] + pushed || !t1[x].marked) :: ChildrenMarked(r, x)
    ensures forall x | 0 <= x < |t| && r[x].marked && (x in gray || !t[x].marked) :: ChildrenMarked(r, x)
  {
    var top := gray[|gray| - 1];
    var g1 := gray[..|gray| - 1] + pushed;
    forall x | 0 <= x < |t| && r[x].marked && (x in gray || !t[x].marked)
      ensures ChildrenMarked(r, x)
    {
      if x == top {
        forall c | c in Children(r[x].value)
          ensures c < |r| && r[c].marked
        {
          assert c in Children(t[top].value);
          var k :| 0 <= k < |slots| && slots[k].Some? && slots[k].value == c;
          assert t1[c].marked;
        }
      } else if x in gray {
        var k :| 0 <= k < |gray| && gray[k] == x;
        assert g1[k] == x;
      } else if t1[x].marked {
        var k :| 0 <= k < |pushed| && pushed[k] == x;
        assert g1[|gray| - 1 + k] == x;
      }
    }
  }

  /** Every object on the gray stack after one iteration is reachable from
      the stack before it: it was already gray, or it is a child of the
      object just popped. */
  lemma NextGrayReachable(t: Table, gray: seq<Handle>, pushed: seq<Handle>)
    requires Closed(t) && |gray| > 0 && AllValid(t, gray)
    requires forall k | 0 <= k < |pushed| :: pushed[k] < |t| && Some(pushed[k]) in Slots(t[gray[|gray| - 1]].value)
    ensures forall y | y in Elems(gray[..|gray| - 1] + pushed) :: Reaches(t, Elems(gray), y)
  {
    var top := gray[|gray| - 1];
    var rest := gray[..|gray| - 1];
    var g1 := rest + pushed;
    var src := Elems(gray);
    ReachesSelf(t, src, top);
    forall y | y in Elems(g1)
      ensures Reaches(t, src, y)
    {
      var k :| 0 <= k < |g1| && g1[k] == y;
      if k < |rest| {
        assert gray[k] == y;
        ReachesSelf(t, src, y);
      } else {
        assert pushed[k - |rest|] == y;
        var slots := Slots(t[top].value);
        var m :| 0 <= m < |slots| && slots[m] == Some(y);
        assert y in Children(t[top].value);
        ReachesStep(t, src, top, y);
      }
    }
  }

  /** One iteration of the tracing loop keeps the reachability promise of TraceWork. */
  lemma TraceStepReach(t: Table, gray: seq<Handle>, t1: Table, pushed: seq<Handle>, r: Table)
    requires Closed(t) && |gray| > 0 && AllValid(t, gray)
    requires SlotsIn(t, Slots(t[gray[|gray| - 1]].value))
    requires SameValues(t, t1)
    requires forall k | 0 <= k < |pushed| :: pushed[k] < |t| && Some(pushed[k]) in Slots(t[gray[|gray| - 1]].value)
    requires forall x | 0 <= x < |t| :: t1[x].marked <==> t[x].marked || x in pushed
    requires SameValues(t1, r)
    requires forall x | 0 <= x < |t1| && r[x].marked && !t1[x].marked :: Reaches(t1, Elems(gray[..|gray| - 1] + pushed), x)
    ensures forall x | 0 <= x < |t| && r[x].marked && !t[x].marked :: Reaches(t, Elems(gray), x)
  {
    var top := gray[|gray| - 1];
    var rest := gray[..|gray| - 1];
    var g1 := rest + pushed;
    var src := Elems(gray);
    NextGrayReachable(t, gray, pushed);
    forall x | 0 <= x < |t| && r[x].marked && !t[x].marked
      ensures Reaches(t, src, x)
    {
      if t1[x].marked {
        var k :| 0 <= k < |pushed| && pushed[k] == x;
        assert g1[|rest| + k] == x;
        assert x in Elems(g1);
      } else {
        ReachesSameValues(t, t1, Elems(g1), x);
        ReachesTrans(t, Elems(g1), src, x);
      }
    }
  }

  // ---------------------------------------------------------------------------
  // Seeding, sweep and the whole collection

  /** The registry entries whose flag is set, in registry order: the objects
      trace seeds its gray stack with, and the objects sweep keeps. */
  function MarkedEntries(t: Table, reg: seq<Handle>): (r: seq<Handle>)
    requires AllValid(t, reg)
    ensures AllValid(t, r)
    ensures forall h :: h in r <==> h in reg && t[h].marked
    ensures |r| <= |reg|
    decreases |reg|
  {
    if |reg| == 0 then []
    else (if t[reg[0]].marked then [reg[0]] else []) + MarkedEntries(t, reg[1..])
  }

  /** Filtering distributes over concatenation: the survivors of a registry
      keep their relative order. */
  lemma {:induction false} MarkedEntriesAppend(t: Table, a: seq<Handle>, b: seq<Handle>)
    requires AllValid(t, a) && AllValid(t, b)
    ensures AllValid(t, a + b)
    ensures MarkedEntries(t, a + b) == MarkedEntries(t, a) + MarkedEntries(t, b)
    decreases |a|
  {
    if |a| == 0 {
      assert a + b == b;
    } else {
      assert (a + b)[0] == a[0];
      assert (a + b)[1..] == a[1..] + b;
      MarkedEntriesAppend(t, a[1..], b);
    }
  }

  /** A registry without duplicates keeps none after filtering. */
  lemma {:induction false} MarkedEntriesNoDup(t: Table, reg: seq<Handle>)
    requires AllValid(t, reg) && NoDup(reg)
    ensures NoDup(MarkedEntries(t, reg))
    decreases |reg|
  {
    if |reg| > 0 {
      MarkedEntriesNoDup(t, reg[1..]);
      assert reg[0] !in reg[1..];
    }
  }

  /** The trace phase: seed the gray stack with the marked registry entries and
      run the tracing loop. */
  function Trace(t: Table, reg: seq<Handle>): (r: Table)
    requires Closed(t) && AllValid(t, reg)
    ensures SameValues(t, r)
    ensures forall x | 0 <= x < |t| :: t[x].marked ==> r[x].marked
    ensures forall x | 0 <= x < |t| && r[x].marked && (x in reg || !t[x].marked) :: ChildrenMarked(r, x)
    ensures forall x | 0 <= x < |t| && r[x].marked && !t[x].marked ::
              Reaches(t, (set h | h in reg && t[h].marked), x)
  {
    var seeds := MarkedEntries(t, reg);
    TraceWorkCorrect(t, seeds);
    assert Elems(seeds) == set h | h in reg && t[h].marked;
    TraceWork(t, seeds)
  }

  /** Clears the flag of every registry entry. */
  function ClearMarks(t: Table, reg: seq<Handle>): (r: Table)
    requires AllValid(t, reg)
    ensures SameValues(t, r)
    ensures forall x | 0 <= x < |t| :: r[x].marked <==> t[x].marked && x !in reg
    decreases |reg|
  {
    if |reg| == 0 then t
    else ClearMarks(SetMark(t, reg[0], false), reg[1..])
  }

  /** The sweep phase as a function: the marked registry entries survive in
      their original order with their flags cleared; the rest are freed, which
      here means they leave the registry. */
  function Sweep(t: Table, reg: seq<Handle>): (r: (Table, seq<Handle>))
    requires AllValid(t, reg)
    ensures SameValues(t, r.0) && AllValid(r.0, r.1)
    ensures forall h :: h in r.1 <==> h in reg && t[h].marked
    ensures forall x | 0 <= x < |t| :: r.0[x].marked <==> t[x].marked && x !in reg
    ensures NoDup(reg) ==> NoDup(r.1)
  {
    if NoDup(reg) then MarkedEntriesNoDup(t, reg); (ClearMarks(t, reg), MarkedEntries(t, reg))
    else (ClearMarks(t, reg), MarkedEntries(t, reg))
  }

  /** `sweep` as written: one left-to-right pass that copies each marked entry
      down to the next write slot, clears its flag, and finally truncates the
      registry to the number of survivors. A marked object entered twice would
      survive through its first copy and be freed through its second, and an
      unmarked one would be freed twice, so the registry must not hold duplicates. */
  method SweepInPlace(t: Table, reg: seq<Handle>) returns (t': Table, reg': seq<Handle>)
    requires AllValid(t, reg) && NoDup(reg)
    ensures reg' == MarkedEntries(t, reg)
    ensures SameValues(t, t')
    ensures forall x | 0 <= x < |t| :: t'[x].marked <==> t[x].marked && x !in reg
  {
    var data := reg;
    var writeIndex := 0;
    var i := 0;
    t' := t;
    while i < |reg|
      invariant 0 <= writeIndex <= i <= |reg| == |data|
      invariant data[i..] == reg[i..]
      invariant data[..writeIndex] == MarkedEntries(t, reg[..i])
      invariant SameValues(t, t')
      invariant Cleared(t, t', reg[..i])
    {
      data, writeIndex, t' := SweepEntry(t, reg, i, data, writeIndex, t');
      i := i + 1;
    }
    assert reg[..i] == reg;
    reg' := data[..writeIndex];
  }

  /** One iteration of the sweep loop: entry `i` is kept, and its flag
      cleared, exactly when it is marked. */
  method SweepEntry(t: Table, reg: seq<Handle>, i: nat, data: seq<Handle>, w: nat, t': Table)
      returns (data': seq<Handle>, w': nat, t'': Table)
    requires AllValid(t, reg) && NoDup(reg)
    requires w <= i < |reg| == |data| && data[i..] == reg[i..]
    requires data[..w] == MarkedEntries(t, reg[..i])
    requires SameValues(t, t') && Cleared(t, t', reg[..i])
    ensures w' <= i + 1 && |data'| == |reg| && data'[i + 1..] == reg[i + 1..]
    ensures data'[..w'] == MarkedEntries(t, reg[..i + 1])
    ensures SameValues(t, t'') && Cleared(t, t'', reg[..i + 1])
  {
    var obj := data[i];
    SweepStep(t, reg, i, t');
    if t'[obj].marked {
      CopyDown(data, w, i, obj);
      ClearSurvivor(t, reg, i, t');
      t'' := SetMark(t', obj, false);
      data' := data[w := obj];
      w' := w + 1;
    } else {
      PassVictim(t, reg, i, t');
      data', w', t'' := data, w, t';
    }
  }

  /** The sweep's flag invariant: the entries in `seen` have had their flags
      cleared and every other flag is as it was in `t`. */
  predicate Cleared(t: Table, t': Table, seen: seq<Handle>)
    requires |t'| == |t|
  {
    forall x | 0 <= x < |t| :: t'[x].marked <==> t[x].marked && x !in seen
  }

  /** What one iteration of the sweep loop sees and does, stated on the
      registry prefix it has visited. */
  lemma SweepStep(t: Table, reg: seq<Handle>, i: nat, t': Table)
    requires AllValid(t, reg) && NoDup(reg) && i < |reg|
    requires SameValues(t, t')
    requires Cleared(t, t', reg[..i])
    ensures t'[reg[i]].marked == t[reg[i]].marked
    ensures MarkedEntries(t, reg[..i + 1]) == MarkedEntries(t, reg[..i]) + (if t[reg[i]].marked then [reg[i]] else [])
  {
    assert reg[..i + 1] == reg[..i] + [reg[i]];
    assert reg[i] !in reg[..i];
    MarkedEntriesAppend(t, reg[..i], [reg[i]]);
  }

  /** Writing a survivor to slot `w <= i` extends the kept prefix by it and
      leaves the unvisited suffix alone. */
  lemma CopyDown(data: seq<Handle>, w: nat, i: nat, obj: Handle)
    requires w <= i < |data|
    ensures data[w := obj][..w + 1] == data[..w] + [obj]
    ensures data[w := obj][i + 1..] == data[i + 1..]
  {
  }

  /** Clearing the flag of the survivor at `reg[i]` restores the sweep's
      flag invariant one entry further on. */
  lemma ClearSurvivor(t: Table, reg: seq<Handle>, i: nat, t': Table)
    requires AllValid(t, reg) && NoDup(reg) && i < |reg| && SameValues(t, t')
    requires Cleared(t, t', reg[..i])
    ensures Cleared(t, SetMark(t', reg[i], false), reg[..i + 1])
  {
    assert reg[..i + 1] == reg[..i] + [reg[i]];
  }

  /** Passing over an unmarked entry keeps the sweep's flag invariant. */
  lemma PassVictim(t: Table, reg: seq<Handle>, i: nat, t': Table)
    requires AllValid(t, reg) && i < |reg| && SameValues(t, t')
    requires Cleared(t, t', reg[..i]) && !t'[reg[i]].marked
    ensures Cleared(t, t', reg[..i + 1])
  {
    assert reg[..i + 1] == reg[..i] + [reg[i]];
  }

  /** `vm_collect_garbage`: mark, trace, sweep. The registry must be present,
      because trace and sweep read it without a NULL check.

      The collector keeps every registered root, keeps every registered child of
      a survivor, only ever drops entries, and leaves every survivor unmarked. */
  function Collect(vm: Vm, t: Table): (r: (Vm, Table))
    requires vm.objects.Some? && Closed(t)
    requires AllValid(t, vm.objects.value) && NoDup(vm.objects.value)
    ensures r.0.frames == vm.frames && r.0.objects.Some?
    ensures SameValues(t, r.1) && Closed(r.1)
    ensures AllValid(r.1, r.0.objects.value) && NoDup(r.0.objects.value)
    ensures forall h | h in r.0.objects.value :: h in vm.objects.value
    ensures vm.frames.Some? ==> forall h | h in vm.objects.value && IsRoot(vm.frames.value, h) :: h in r.0.objects.value
    ensures forall h, c | h in r.0.objects.value && c in Children(t[h].value) && c in vm.objects.value :: c in r.0.objects.value
    ensures forall h | h in r.0.objects.value :: !r.1[h].marked
  {
    var reg := vm.objects.value;
    var t1 := Mark(Some(vm), t);
    var t2 := Trace(t1, reg);
    var s := Sweep(t2, reg);
    CollectKeeps(vm, t, t1, t2);
    MarkedEntriesNoDup(t2, reg);
    (vm.(objects := Some(s.1)), s.0)
  }

  /** The survivors of a collection: every registered root, and every
      registered child of a survivor. */
  lemma CollectKeeps(vm: Vm, t: Table, t1: Table, t2: Table)
    requires vm.objects.Some? && Closed(t) && AllValid(t, vm.objects.value)
    requires t1 == Mark(Some(vm), t)
    requires t2 == Trace(t1, vm.objects.value)
    ensures vm.frames.Some? ==> forall h | h in vm.objects.value && IsRoot(vm.frames.value, h) :: h in MarkedEntries(t2, vm.objects.value)
    ensures forall h, c | h in MarkedEntries(t2, vm.objects.value) && c in Children(t[h].value) && c in vm.objects.value ::
              c in MarkedEntries(t2, vm.objects.value)
  {
    var reg := vm.objects.value;
    forall h, c | h in MarkedEntries(t2, reg) && c in Children(t[h].value) && c in reg
      ensures c in MarkedEntries(t2, reg)
    {
      assert t2[h].marked && h in reg;
      assert ChildrenMarked(t2, h);
      assert c in Children(t2[h].value);
    }
  }
}

=== FILE: gc_properties.dfy ===
/** What a whole collection does when the runtime's invariants hold, and what
    follows: liveness, reclamation, idempotence. */
module GcProperties {
  import opened Wrappers
  import opened Heap
  import opened Gc

  /** The state the runtime keeps between collections: a registry without
      duplicates that holds every root and every child of its objects, and no
      mark flag set outside a collection. */
  ghost predicate Consistent(vm: Vm, t: Table)
  {
    && vm.objects.Some?
    && Closed(t)
    && AllValid(t, vm.objects.value)
    && NoDup(vm.objects.value)
    && NoneMarked(t)
    && (vm.frames.Some? ==> forall h | IsRoot(vm.frames.value, h) :: h in vm.objects.value)
    && (forall i, c | 0 <= i < |vm.objects.value| && c in Children(t[vm.objects.value[i]].value) :: c in vm.objects.value)
  }

  /** The registered roots of the VM. */
  ghost function RootSet(vm: Vm): set<Handle>
    requires vm.objects.Some?
  {
    if vm.frames.None? then {} else set h | h in vm.objects.value && IsRoot(vm.frames.value, h)
  }

  /** The registry entries reachable from `src`, in registry order. */
  ghost function LiveEntries(t: Table, src: set<Handle>, reg: seq<Handle>): (r: seq<Handle>)
    ensures forall h :: h in r <==> h in reg && Reaches(t, src, h)
    decreases |reg|
  {
    if |reg| == 0 then []
    else (if Reaches(t, src, reg[0]) then [reg[0]] else []) + LiveEntries(t, src, reg[1..])
  }

  lemma {:induction false} MarkedIsLive(t2: Table, t: Table, src: set<Handle>, reg: seq<Handle>)
    requires AllValid(t2, reg)
    requires forall i | 0 <= i < |reg| :: t2[reg[i]].marked <==> Reaches(t, src, reg[i])
    ensures MarkedEntries(t2, reg) == LiveEntries(t, src, reg)
    decreases |reg|
  {
    if |reg| > 0 {
      MarkedIsLive(t2, t, src, reg[1..]);
    }
  }

  lemma {:induction false} AllLive(t: Table, src: set<Handle>, reg: seq<Handle>)
    requires forall i | 0 <= i < |reg| :: Reaches(t, src, reg[i])
    ensures LiveEntries(t, src, reg) == reg
    decreases |reg|
  {
    if |reg| > 0 {
      AllLive(t, src, reg[1..]);
    }
  }

  /** Everything reachable from the roots is registered. */
  lemma ReachableIsRegistered(vm: Vm, t: Table, h: Handle)
    requires Consistent(vm, t)
    requires Reaches(t, RootSet(vm), h)
    ensures h in vm.objects.value
  {
    var reg := vm.objects.value;
    var k := set x | x in reg;
    forall a, c | a in k && a < |t| && c in Children(t[a].value)
      ensures c in k
    {
      var i :| 0 <= i < |reg| && reg[i] == a;
    }
    ReachesInClosedSet(t, RootSet(vm), k, h);
  }

  /** After marking, exactly the registered roots are marked. */
  lemma MarkedAfterMark(vm: Vm, t: Table, t1: Table)
    requires Consistent(vm, t)
    requires t1 == Mark(Some(vm), t)
    ensures forall x | 0 <= x < |t| :: t1[x].marked <==> x in RootSet(vm)
    ensures (set h | h in vm.objects.value && t1[h].marked) == RootSet(vm)
  {
  }

  /** After mark and trace, an object is marked exactly when it is reachable
      from the roots. */
  lemma MarkedIffReachable(vm: Vm, t: Table, t1: Table, t2: Table)
    requires Consistent(vm, t)
    requires t1 == Mark(Some(vm), t)
    requires t2 == Trace(t1, vm.objects.value)
    ensures forall x | 0 <= x < |t| :: t2[x].marked <==> Reaches(t, RootSet(vm), x)
  {
    MarkedAfterMark(vm, t, t1);
    TracedAreReachable(vm, t, t1, t2);
    ReachableAreTraced(t, t1, t2, vm.objects.value, RootSet(vm));
  }

  lemma TracedAreReachable(vm: Vm, t: Table, t1: Table, t2: Table)
    requires Consistent(vm, t)
    requires t1 == Mark(Some(vm), t)
    requires t2 == Trace(t1, vm.objects.value)
    requires forall x | 0 <= x < |t| :: t1[x].marked <==> x in RootSet(vm)
    requires (set h | h in vm.objects.value && t1[h].marked) == RootSet(vm)
    ensures forall x | 0 <= x < |t| && t2[x].marked :: Reaches(t, RootSet(vm), x)
  {
    var R := RootSet(vm);
    forall x | 0 <= x < |t| && t2[x].marked
      ensures Reaches(t, R, x)
    {
      if t1[x].marked {
        ReachesSelf(t, R, x);
      } else {
        ReachesSameValues(t, t1, R, x);
      }
    }
  }

  lemma ReachableAreTraced(t: Table, t1: Table, t2: Table, reg: seq<Handle>, R: set<Handle>)
    requires SameValues(t, t2) && |t1| == |t|
    requires forall x | x in R :: x < |t| && t1[x].marked
    requires forall x | 0 <= x < |t| && t1[x].marked :: x in reg
    requires forall x | 0 <= x < |t| :: t1[x].marked ==> t2[x].marked
    requires forall x | 0 <= x < |t| && t2[x].marked && (x in reg || !t1[x].marked) :: ChildrenMarked(t2, x)
    ensures forall x | 0 <= x < |t| && Reaches(t, R, x) :: t2[x].marked
  {
    var K := set x | 0 <= x < |t| && t2[x].marked;
    forall a, c | a in K && a < |t2| && c in Children(t2[a].value)
      ensures c in K
    {
      assert ChildrenMarked(t2, a);
    }
    forall x | 0 <= x < |t| && Reaches(t, R, x)
      ensures t2[x].marked
    {
      ReachesSameValues(t, t2, R, x);
      ReachesInClosedSet(t2, R, K, x);
    }
  }

  /** A collection keeps exactly the registered objects reachable from the
      roots, in their registry order, and leaves no object marked. */
  lemma CollectCharacterization(vm: Vm, t: Table)
    requires Consistent(vm, t)
    ensures Collect(vm, t).0.objects == Some(LiveEntries(t, RootSet(vm), vm.objects.value))
    ensures Collect(vm, t).0.frames == vm.frames
    ensures SameValues(t, Collect(vm, t).1)
    ensures NoneMarked(Collect(vm, t).1)
  {
    var reg := vm.objects.value;
    var R := RootSet(vm);
    var t1 := Mark(Some(vm), t);
    var t2 := Trace(t1, reg);
    MarkedIffReachable(vm, t, t1, t2);
    MarkedIsLive(t2, t, R, reg);
    forall x | 0 <= x < |t| && t2[x].marked
      ensures x in reg
    {
      ReachableIsRegistered(vm, t, x);
    }
  }

  /** Liveness and reclamation: a registered object survives a collection if
      and only if it is reachable from a root. */
  lemma CollectKeepsExactlyReachable(vm: Vm, t: Table, h: Handle)
    requires Consistent(vm, t)
    ensures h in Collect(vm, t).0.objects.value <==> h in vm.objects.value && Reaches(t, RootSet(vm), h)
  {
    CollectCharacterization(vm, t);
  }

  /** A collection re-establishes the runtime's invariants. */
  lemma CollectPreservesConsistent(vm: Vm, t: Table)
    requires Consistent(vm, t)
    ensures Consistent(Collect(vm, t).0, Collect(vm, t).1)
    ensures RootSet(Collect(vm, t).0) == RootSet(vm)
  {
    CollectCharacterization(vm, t);
    var r := Collect(vm, t);
    SurvivorsHoldRoots(vm, t, r.0.objects.value);
    SurvivorsHoldChildren(vm, t, r.1, r.0.objects.value);
  }

  lemma SurvivorsHoldRoots(vm: Vm, t: Table, reg1: seq<Handle>)
    requires Consistent(vm, t)
    requires reg1 == LiveEntries(t, RootSet(vm), vm.objects.value)
    ensures vm.frames.Some? ==> forall h | IsRoot(vm.frames.value, h) :: h in reg1
  {
    if vm.frames.Some? {
      forall h | IsRoot(vm.frames.value, h)
        ensures h in reg1
      {
        assert h in vm.objects.value && h in RootSet(vm);
        ReachesSelf(t, RootSet(vm), h);
      }
    }
  }

  lemma SurvivorsHoldChildren(vm: Vm, t: Table, t1: Table, reg1: seq<Handle>)
    requires Consistent(vm, t) && SameValues(t, t1) && AllValid(t, reg1)
    requires reg1 == LiveEntries(t, RootSet(vm), vm.objects.value)
    ensures forall i, c | 0 <= i < |reg1| && c in Children(t1[reg1[i]].value) :: c in reg1
  {
    var reg := vm.objects.value;
    forall i, c | 0 <= i < |reg1| && c in Children(t1[reg1[i]].value)
      ensures c in reg1
    {
      var h := reg1[i];
      assert h in reg && Reaches(t, RootSet(vm), h);
      var j :| 0 <= j < |reg| && reg[j] == h;
      assert c in Children(t[reg[j]].value);
      assert c in reg;
      ChildInTable(t, h, c);
      ReachesStep(t, RootSet(vm), h, c);
    }
  }

  /** Two consecutive collections with nothing in between: the second one
      changes nothing. */
  lemma CollectIdempotent(vm: Vm, t: Table)
    requires Consistent(vm, t)
    ensures var r := Collect(vm, t); Collect(r.0, r.1) == r
  {
    var r := Collect(vm, t);
    CollectCharacterization(vm, t);
    CollectPreservesConsistent(vm, t);
    CollectCharacterization(r.0, r.1);
    var reg1 := r.0.objects.value;
    var R := RootSet(vm);
    forall i | 0 <= i < |reg1|
      ensures Reaches(r.1, R, reg1[i])
    {
      ReachesSameValues(t, r.1, R, reg1[i]);
    }
    AllLive(r.1, R, reg1);
    var r2 := Collect(r.0, r.1);
    assert r2.0 == r.0;
    assert r2.1 == r.1;
  }

  // ---------------------------------------------------------------------------
  // Scenarios

  /** With no root at all, a collection empties the registry. */
  lemma CollectWithoutRootsFreesAll(vm: Vm, t: Table)
    requires Consistent(vm, t)
    requires vm.frames.None? || forall i | 0 <= i < |vm.frames.value| :: RootSlots(vm.frames.value[i]) == []
    ensures Collect(vm, t).0.objects == Some([])
  {
    CollectCharacterization(vm, t);
    assert RootSet(vm) == {};
  }

  /** One unrooted Integer: the collection frees it. */
  lemma ScenarioUnrootedInteger()
    ensures Collect(Vm(Some([]), Some([0])), [Object(Integer(42), false)]).0.objects == Some([])
  {
    CollectWithoutRootsFreesAll(Vm(Some([]), Some([0])), [Object(Integer(42), false)]);
  }

  /** Three Integers and an Array holding them, rooted by one frame. */
  function ArrayTable(): Table
  {
    [Object(Integer(1), false), Object(Integer(2), false), Object(Integer(3), false),
     Object(Array([Some(0), Some(1), Some(2)]), false)]
  }

  function ArrayVm(): Vm
  {
    Vm(Some([Some(Frame(Some([Some(3)])))]), Some([0, 1, 2, 3]))
  }

  lemma ArrayScenarioConsistent()
    ensures Consistent(ArrayVm(), ArrayTable())
    ensures RootSet(ArrayVm()) == {3}
    ensures Children(ArrayTable()[3].value) == {0, 1, 2}
  {
    var t := ArrayTable();
    var frames := ArrayVm().frames.value;
    assert RootSlots(frames[0]) == [Some(3)];
    assert forall h | IsRoot(frames, h) :: h == 3;
    assert IsRoot(frames, 3) by {
      assert RootSlots(frames[0])[0] == Some(3);
    }
    ArrayChildren();
  }

  lemma ArrayChildren()
    ensures Children(ArrayTable()[3].value) == {0, 1, 2}
  {
    var s := Slots(ArrayTable()[3].value);
    assert s == [Some(0), Some(1), Some(2)];
    assert s[0].value == 0 && s[1].value == 1 && s[2].value == 2;
    assert forall c | c in Children(ArrayTable()[3].value) :: c in {0, 1, 2};
  }

  /** An Array rooted in a frame keeps its three Integer elements alive. */
  lemma ScenarioRootedArray()
    ensures Collect(ArrayVm(), ArrayTable()).0.objects == Some([0, 1, 2, 3])
  {
    ArrayScenarioConsistent();
    CollectCharacterization(ArrayVm(), ArrayTable());
    ArrayAllLive();
  }

  lemma ArrayAllLive()
    ensures LiveEntries(ArrayTable(), {3}, [0, 1, 2, 3]) == [0, 1, 2, 3]
  {
    var t := ArrayTable();
    var reg: seq<Handle> := [0, 1, 2, 3];
    ArrayChildren();
    ReachesSelf(t, {3}, 3);
    ReachesStep(t, {3}, 3, 0);
    ReachesStep(t, {3}, 3, 1);
    ReachesStep(t, {3}, 3, 2);
    assert forall i | 0 <= i < |reg| :: Reaches(t, {3}, reg[i]);
    AllLive(t, {3}, reg);
  }

  /** Once the frame is popped, the next collection frees the Array and its
      elements together. */
  lemma ScenarioPoppedArray()
    ensures var r := Collect(ArrayVm(), ArrayTable());
            Collect(r.0.(frames := Some([])), r.1).0.objects == Some([])
  {
    ArrayScenarioConsistent();
    var r := Collect(ArrayVm(), ArrayTable());
    CollectPreservesConsistent(ArrayVm(), ArrayTable());
    var vm2 := r.0.(frames := Some([]));
    assert Consistent(vm2, r.1);
    CollectWithoutRootsFreesAll(vm2, r.1);
  }
}

=== FILE: heap.dfy ===
/** The object table the collector works on.

    A C `snek_object_t *` becomes a `Handle`, an index into a `Table`. The table
    never shrinks: an object the sweep frees keeps its slot, it only leaves the
    registry (the VM's list of live objects). */
module Heap {
  import opened Wrappers

  type Handle = nat

  /** The payload of an object, one variant per `snek_object_kind_t`.
      An Array holds only its first `size` element slots; the unused capacity
      behind them is never read by the collector. Float values are not modelled. */
  datatype Value =
    | Integer(i: int)
    | Float
    | Str(chars: string)
    | Vector3(x: Option<Handle>, y: Option<Handle>, z: Option<Handle>)
    | Array(elements: seq<Option<Handle>>)

  datatype Object = Object(value: Value, marked: bool)

  type Table = seq<Object>

  /** The reference slots the collector inspects, NULL ones included, in the
      order it inspects them. */
  function Slots(v: Value): seq<Option<Handle>>
  {
    match v
    case Vector3(x, y, z) => [x, y, z]
    case Array(elements) => elements
    case _ => []
  }

  /** The objects a value refers to: its non-NULL slots. */
  function Children(v: Value): set<Handle>
  {
    set i | 0 <= i < |Slots(v)| && Slots(v)[i].Some? :: Slots(v)[i].value
  }

  /** Every non-NULL slot of `slots` points into the table. */
  predicate SlotsIn(t: Table, slots: seq<Option<Handle>>)
  {
    forall k | 0 <= k < |slots| && slots[k].Some? :: slots[k].value < |t|
  }

  /** Every reference stored in an object points into the table. */
  predicate Closed(t: Table)
  {
    forall a | 0 <= a < |t| :: SlotsIn(t, Slots(t[a].value))
  }

  lemma ChildInTable(t: Table, a: Handle, c: Handle)
    requires Closed(t) && a < |t| && c in Children(t[a].value)
    ensures c < |t|
  {
    assert SlotsIn(t, Slots(t[a].value));
  }

  /** Two tables hold the same objects, possibly with different mark flags. */
  predicate SameValues(t: Table, u: Table)
  {
    |t| == |u| && forall i | 0 <= i < |t| :: t[i].value == u[i].value
  }

  predicate NoneMarked(t: Table)
  {
    forall i | 0 <= i < |t| :: !t[i].marked
  }

  predicate ChildrenMarked(t: Table, x: Handle)
    requires x < |t|
  {
    forall c | c in Children(t[x].value) :: c < |t| && t[c].marked
  }

  function SetMark(t: Table, h: Handle, b: bool): (r: Table)
    requires h < |t|
    ensures SameValues(t, r)
    ensures r[h].marked == b
    ensures forall i | 0 <= i < |t| && i != h :: r[i] == t[i]
  {
    t[h := t[h].(marked := b)]
  }

  function UnmarkedSet(t: Table): set<Handle>
  {
    set i: Handle | i < |t| && !t[i].marked
  }

  function Elems(s: seq<Handle>): set<Handle>
  {
    set i | 0 <= i < |s| :: s[i]
  }

  predicate AllValid(t: Table, s: seq<Handle>)
  {
    forall i | 0 <= i < |s| :: s[i] < |t|
  }

  predicate NoDup(s: seq<Handle>)
  {
    forall i, j | 0 <= i < j < |s| :: s[i] != s[j]
  }

  // ---------------------------------------------------------------------------
  // Reachability along reference paths

  /** `p` is a non-empty walk through the table along child references. */
  ghost predicate IsPath(t: Table, p: seq<Handle>)
  {
    && |p| > 0
    && (forall i | 0 <= i < |p| :: p[i] < |t|)
    && (forall i | 0 <= i < |p| - 1 :: p[i + 1] in Children(t[p[i]].value))
  }

  /** `h` can be reached from some object of `src` by following references. */
  ghost predicate Reaches(t: Table, src: set<Handle>, h: Handle)
  {
    exists p :: IsPath(t, p) && p[0] in src && p[|p| - 1] == h
  }

  lemma ReachesSelf(t: Table, src: set<Handle>, h: Handle)
    requires h in src && h < |t|
    ensures Reaches(t, src, h)
  {
    assert IsPath(t, [h]);
  }

  lemma ReachesStep(t: Table, src: set<Handle>, a: Handle, c: Handle)
    requires Reaches(t, src, a)
    requires a < |t| && c < |t| && c in Children(t[a].value)
    ensures Reaches(t, src, c)
  {
    var p :| IsPath(t, p) && p[0] in src && p[|p| - 1] == a;
    var q := p + [c];
    assert IsPath(t, q);
    assert q[0] in src && q[|q| - 1] == c;
  }

  /** Reachability only depends on the objects, not on their mark flags. */
  lemma ReachesSameValues(t: Table, u: Table, src: set<Handle>, h: Handle)
    requires SameValues(t, u)
    ensures Reaches(t, src, h) <==> Reaches(u, src, h)
  {
    if Reaches(t, src, h) {
      var p :| IsPath(t, p) && p[0] in src && p[|p| - 1] == h;
      assert IsPath(u, p);
    }
    if Reaches(u, src, h) {
      var p :| IsPath(u, p) && p[0] in src && p[|p| - 1] == h;
      assert IsPath(t, p);
    }
  }

  /** Reaching `h` from `s1`, every object of which is reachable from `s2`,
      means reaching `h` from `s2`. */
  lemma ReachesTrans(t: Table, s1: set<Handle>, s2: set<Handle>, h: Handle)
    requires Reaches(t, s1, h)
    requires forall x | x in s1 :: Reaches(t, s2, x)
    ensures Reaches(t, s2, h)
  {
    var p :| IsPath(t, p) && p[0] in s1 && p[|p| - 1] == h;
    var q :| IsPath(t, q) && q[0] in s2 && q[|q| - 1] == p[0];
    var r := q + p[1..];
    assert IsPath(t, r) by {
      forall i | 0 <= i < |r| - 1
        ensures r[i + 1] in Children(t[r[i]].value)
      {
        if i < |q| - 1 {
          assert r[i] == q[i] && r[i + 1] == q[i + 1];
        } else {
          assert r[i] == p[i - |q| + 1] && r[i + 1] == p[i - |q| + 2];
        }
      }
    }
    assert r[|r| - 1] == h;
  }

  /** Every object on a path that starts in a child-closed set `k` is in `k`. */
  lemma {:induction false} PathStaysInClosedSet(t: Table, p: seq<Handle>, k: set<Handle>, n: nat)
    requires IsPath(t, p) && p[0] in k
    requires forall a, c | a in k && a < |t| && c in Children(t[a].value) :: c in k
    requires n < |p|
    ensures p[n] in k
  {
    if n > 0 {
      PathStaysInClosedSet(t, p, k, n - 1);
    }
  }

  /** A set that contains `src` and is closed under children contains everything
      reachable from `src`. */
  lemma ReachesInClosedSet(t: Table, src: set<Handle>, k: set<Handle>, h: Handle)
    requires src <= k
    requires forall a, c | a in k && a < |t| && c in Children(t[a].value) :: c in k
    requires Reaches(t, src, h)
    ensures h in k
  {
    var p :| IsPath(t, p) && p[0] in src && p[|p| - 1] == h;
    PathStaysInClosedSet(t, p, k, |p| - 1);
  }
}

=== FILE: lexer.dfy ===
/** The scanner of src/lexer/lexer.c.

    The source is a character sequence read as a C string: reading at or past
    its end, or at an embedded NUL, yields '\0'. A lexer state is a position in
    it, and `NextToken` is one call of `lexer_next_token`. The lexer's line
    counter starts at 1 and is never advanced, so every token carries line 1. */
module Lexer {
  import opened Wrappers

  /** The token kinds the lexer and the parser use. `Colon` and `Bang` are tested
      by the parser but never produced by the lexer; `Error` is never produced. */
  datatype TokenKind =
    | Int | Float | Str
    | Plus | Minus | Star | Slash
    | LParen | RParen | LBracket | RBracket
    | Greater | Less | Comma | Equal
    | Identifier | Eof | Eol | Error
    | Colon | Bang

  datatype Token = Token(kind: TokenKind, lexeme: string, line: int)

  /** The fatal errors the lexer reports before exiting. */
  datatype LexError = UnterminatedString(line: int) | UnknownCharacter(c: char, line: int)

  /** `lexer->line`: set to 1 when the lexer is created and never changed. */
  const Line: int := 1

  /** The longest number or identifier lexeme that fits its 64-byte buffer, and
      the longest string content that fits its 256-byte buffer (one byte is the
      terminating NUL). */
  const MaxWordLength: nat := 63
  const MaxStringLength: nat := 255

  /** `lexer_peek`: the character at `pos`, or '\0' at the end. */
  function Peek(src: string, pos: nat): (r: char)
    ensures r == '\0' <==> pos >= |src| || src[pos] == '\0'
    ensures r != '\0' ==> pos < |src| && src[pos] == r
  {
    if pos < |src| then src[pos] else '\0'
  }

  predicate IsDigit(c: char)
  {
    '0' <= c <= '9'
  }

  predicate IsAlpha(c: char)
  {
    'a' <= c <= 'z' || 'A' <= c <= 'Z'
  }

  predicate IsWordChar(c: char)
  {
    IsAlpha(c) || IsDigit(c) || c == '_'
  }

  predicate IsBlank(c: char)
  {
    c == ' ' || c == '\t' || c == '\r'
  }

  /** `lexer_skip_whitespace`: the first position at or after `pos` that does
      not hold a space, tab or carriage return. A newline is not skipped. */
  function SkipWhitespace(src: string, pos: nat): (r: nat)
    requires pos <= |src|
    ensures pos <= r <= |src|
    ensures forall k | pos <= k < r :: IsBlank(src[k])
    ensures !IsBlank(Peek(src, r))
    decreases |src| - pos
  {
    if pos < |src| && IsBlank(src[pos]) then SkipWhitespace(src, pos + 1) else pos
  }

  /** The single-character tokens, each with its own kind. */
  function PunctKind(c: char): Option<TokenKind>
  {
    match c
    case '+' => Some(Plus)
    case '*' => Some(Star)
    case '/' => Some(Slash)
    case '(' => Some(LParen)
    case ')' => Some(RParen)
    case '[' => Some(LBracket)
    case ']' => Some(RBracket)
    case '>' => Some(Greater)
    case '<' => Some(Less)
    case ',' => Some(Comma)
    case '=' => Some(Equal)
    case _ => None
  }

  /** The loop of `parse_number`: from `i`, consume digits and at most one '.'
      (none if `hasDot`). Returns where it stopped and whether a '.' was seen. */
  function ScanNumber(src: string, i: nat, hasDot: bool): (r: (nat, bool))
    requires i <= |src|
    ensures i <= r.0 <= |src|
    ensures forall k | i <= k < r.0 :: IsDigit(src[k]) || src[k] == '.'
    ensures hasDot ==> forall k | i <= k < r.0 :: src[k] != '.'
    ensures forall k, m | i <= k < m < r.0 && src[k] == '.' :: src[m] != '.'
    ensures r.1 <==> hasDot || exists k :: i <= k < r.0 && src[k] == '.'
    ensures !IsDigit(Peek(src, r.0)) && !(Peek(src, r.0) == '.' && !r.1)
    decreases |src| - i
  {
    var c := Peek(src, i);
    if IsDigit(c) || (c == '.' && !hasDot) then ScanNumber(src, i + 1, hasDot || c == '.')
    else (i, hasDot)
  }

  /** The loop of the string case: the first position at or after `i` holding a
      '"' or the end of the text. */
  function ScanString(src: string, i: nat): (r: nat)
    requires i <= |src|
    ensures i <= r <= |src|
    ensures forall k | i <= k < r :: src[k] != '"' && src[k] != '\0'
    ensures Peek(src, r) == '"' || Peek(src, r) == '\0'
    decreases |src| - i
  {
    var c := Peek(src, i);
    if c != '"' && c != '\0' then ScanString(src, i + 1) else i
  }

  /** The loop of the identifier case: letters, digits and '_' from `i` on. */
  function ScanWord(src: string, i: nat): (r: nat)
    requires i <= |src|
    ensures i <= r <= |src|
    ensures forall k | i <= k < r :: IsWordChar(src[k])
    ensures !IsWordChar(Peek(src, r))
    decreases |src| - i
  {
    if IsWordChar(Peek(src, i)) then ScanWord(src, i + 1) else i
  }

  /** The token that starts at `pos` (after whitespace) fits the fixed buffer
      the lexer copies it into; a longer one overflows the buffer in the C code. */
  predicate WithinBuffers(src: string, pos: nat)
    requires pos <= |src|
  {
    var p := SkipWhitespace(src, pos);
    var c := Peek(src, p);
    if IsDigit(c) || (c == '-' && IsDigit(Peek(src, p + 1))) then ScanNumber(src, p + 1, false).0 - p <= MaxWordLength
    else if c == '"' then ScanString(src, p + 1) - (p + 1) <= MaxStringLength
    else if IsAlpha(c) || c == '_' then ScanWord(src, p + 1) - p <= MaxWordLength
    else true
  }

  /** `parse_number`: the lexeme runs from the token start `start` (a digit or
      '-') over the digits and at most one '.' that follow; the kind is FLOAT
      exactly when a '.' was consumed. */
  function Number(src: string, start: nat, q: nat): (r: (Token, nat))
    requires start < q <= |src|
    ensures q <= r.1 <= |src| && r.0.lexeme == src[start..r.1] && r.0.line == Line
    ensures forall k | q <= k < r.1 :: IsDigit(src[k]) || src[k] == '.'
    ensures forall k, m | q <= k < m < r.1 && src[k] == '.' :: src[m] != '.'
    ensures !IsDigit(Peek(src, r.1))
    ensures r.0.kind == Int ==> Peek(src, r.1) != '.'
    ensures r.0.kind == Int || r.0.kind == Float
    ensures r.0.kind == Float <==> exists k :: q <= k < r.1 && src[k] == '.'
  {
    var (e, dot) := ScanNumber(src, q, false);
    (Token(if dot then Float else Int, src[start..e], Line), e)
  }

  /** `lexer_next_token`: skip blanks, then scan one token. Returns the token
      and the position after it, or the fatal error the C code exits with. */
  function NextToken(src: string, pos: nat): (r: Result<(Token, nat), LexError>)
    requires pos <= |src|
    requires WithinBuffers(src, pos)
    ensures r.Success? ==> pos <= r.value.1 <= |src| && r.value.0.line == Line
    ensures r.Success? && r.value.0.kind != Eof ==> pos < r.value.1
  {
    var p := SkipWhitespace(src, pos);
    var c := Peek(src, p);
    if c == '\0' then Success((Token(Eof, "", Line), p))
    else
      var q := p + 1;
      if PunctKind(c).Some? then Success((Token(PunctKind(c).value, [c], Line), q))
      else if c == '\n' then Success((Token(Eol, "", Line), q))
      else if c == '-' then
        if IsDigit(Peek(src, q)) then Success(Number(src, p, q))
        else Success((Token(Minus, "-", Line), q))
      else if IsDigit(c) then Success(Number(src, p, q))
      else if c == '"' then
        var e := ScanString(src, q);
        if Peek(src, e) == '"' then Success((Token(Str, src[q..e], Line), e + 1))
        else Failure(UnterminatedString(Line))
      else if IsAlpha(c) || c == '_' then
        var e := ScanWord(src, q);
        Success((Token(Identifier, src[p..e], Line), e))
      else Failure(UnknownCharacter(c, Line))
  }

  /** Every token that repeated `lexer_next_token` calls scan from `pos` fits
      its buffer. Only the token starts those calls reach are checked, up to
      the first EOF or fatal error: the text inside a string literal is never
      scanned as a token of its own. */
  predicate BuffersHold(src: string, pos: nat)
    requires pos <= |src|
    decreases |src| - pos
  {
    && WithinBuffers(src, pos)
    && match NextToken(src, pos)
       case Failure(_) => true
       case Success((tok, q)) => tok.kind == Eof || BuffersHold(src, q)
  }

  /** The tokens the parser pulls through `parser_advance`, one
      `lexer_next_token` call each, up to and including the first EOF; the first
      fatal error ends the run. */
  function Tokenize(src: string, pos: nat): (r: Result<seq<Token>, LexError>)
    requires pos <= |src| && BuffersHold(src, pos)
    ensures r.Success? ==> |r.value| > 0 && r.value[|r.value| - 1].kind == Eof
    ensures r.Success? ==> forall k | 0 <= k < |r.value| - 1 :: r.value[k].kind != Eof
    ensures NextToken(src, pos).Failure? ==> r.Failure?
    ensures r.Success? ==> NextToken(src, pos).Success? && r.value[0] == NextToken(src, pos).value.0
    decreases |src| - pos
  {
    var next := NextToken(src, pos);
    match next
    case Failure(e) => Failure(e)
    case Success((tok, q)) =>
      if tok.kind == Eof then Success([tok])
      else
        match Tokenize(src, q)
        case Failure(e) => Failure(e)
        case Success(rest) => Success([tok] + rest)
  }
}

=== FILE: lexer_properties.dfy ===
/** Properties of one `lexer_next_token` call, and of the token stream that
    repeated calls produce. */
module LexerProperties {
  import opened Wrappers
  import opened Lexer

  /** The text a token was scanned from: a string token's lexeme lacks its
      quotes, an end-of-line token stands for '\n', the end-of-file token for
      nothing. */
  function Spelling(tok: Token): string
  {
    match tok.kind
    case Str => "\"" + tok.lexeme + "\""
    case Eol => "\n"
    case Eof => ""
    case _ => tok.lexeme
  }

  /** A '"' closes a string opened before `i`: one appears before the text ends. */
  ghost predicate QuoteAhead(src: string, i: nat)
  {
    exists k :: i <= k < |src| && src[k] == '"' && forall m | i <= m < k :: src[m] != '\0'
  }

  lemma SkipWhitespaceIdempotent(src: string, pos: nat)
    requires pos <= |src|
    ensures SkipWhitespace(src, SkipWhitespace(src, pos)) == SkipWhitespace(src, pos)
  {
  }

  /** Blanks before a token change nothing: the lexer sees the same token from
      the first non-blank position. */
  lemma LexSkipsBlanks(src: string, pos: nat)
    requires pos <= |src| && WithinBuffers(src, pos)
    ensures WithinBuffers(src, SkipWhitespace(src, pos))
    ensures NextToken(src, pos) == NextToken(src, SkipWhitespace(src, pos))
  {
    SkipWhitespaceIdempotent(src, pos);
    BuffersFromStart(src, pos, SkipWhitespace(src, pos));
    SameStartSameToken(src, pos, SkipWhitespace(src, pos));
  }

  /** Whether a token fits its buffer depends only on where it starts. */
  lemma BuffersFromStart(src: string, pos: nat, p: nat)
    requires pos <= |src| && p <= |src| && SkipWhitespace(src, pos) == SkipWhitespace(src, p)
    requires WithinBuffers(src, pos)
    ensures WithinBuffers(src, p)
  {
  }

  /** The token the lexer returns depends only on where it starts. */
  lemma SameStartSameToken(src: string, pos: nat, p: nat)
    requires pos <= |src| && p <= |src| && SkipWhitespace(src, pos) == SkipWhitespace(src, p)
    requires WithinBuffers(src, pos) && WithinBuffers(src, p)
    ensures NextToken(src, pos) == NextToken(src, p)
  {
  }

  /** Every successful token is followed by the position right after the text
      it was scanned from, and that text is the token's spelling. */
  lemma LexSpelling(src: string, pos: nat)
    requires pos <= |src| && WithinBuffers(src, pos)
    requires NextToken(src, pos).Success?
    ensures var (tok, q) := NextToken(src, pos).value;
            var p := SkipWhitespace(src, pos);
            p <= q && src[p..q] == Spelling(tok)
  {
    var p := SkipWhitespace(src, pos);
    var c := Peek(src, p);
    var (tok, q) := NextToken(src, pos).value;
    if c == '\0' {
      LexEof(src, pos);
    } else if PunctKind(c).Some? {
      LexPunctuation(src, pos);
      PlainSpelling(src, p, tok, q);
    } else if c == '\n' {
      LexNewline(src, pos);
      NewlineSpelling(src, p, tok, q);
    } else if c == '-' {
      LexMinus(src, pos);
      PlainSpelling(src, p, tok, q);
    } else if IsDigit(c) {
      LexNumber(src, pos);
      PlainSpelling(src, p, tok, q);
    } else if c == '"' {
      LexString(src, pos);
      StringSpelling(src, p, tok, q);
    } else if IsAlpha(c) || c == '_' {
      LexIdentifier(src, pos);
      PlainSpelling(src, p, tok, q);
    } else {
      LexUnknown(src, pos);
      assert false;
    }
  }

  /** A token other than a string, EOL or EOF spells its lexeme. */
  lemma PlainSpelling(src: string, p: nat, tok: Token, q: nat)
    requires p <= q <= |src| && tok.kind !in {Str, Eol, Eof} && tok.lexeme == src[p..q]
    ensures src[p..q] == Spelling(tok)
  {
  }

  /** An EOL token spells the newline it was read from. */
  lemma NewlineSpelling(src: string, p: nat, tok: Token, q: nat)
    requires p < |src| && src[p] == '\n' && tok.kind == Eol && q == p + 1
    ensures src[p..q] == Spelling(tok)
  {
    assert src[p..q] == [src[p]];
  }

  /** A string token spells its lexeme between the two quotes it was read from. */
  lemma StringSpelling(src: string, p: nat, tok: Token, q: nat)
    requires p + 2 <= q <= |src| && src[p] == '"' && src[q - 1] == '"'
    requires tok.kind == Str && tok.lexeme == src[p + 1..q - 1]
    ensures src[p..q] == Spelling(tok)
  {
    assert src[p..q] == [src[p]] + src[p + 1..q - 1] + [src[q - 1]];
  }

  /** A newline is not blank: it yields an end-of-line token with an empty
      lexeme and is consumed. */
  lemma LexNewline(src: string, pos: nat)
    requires pos <= |src| && WithinBuffers(src, pos)
    requires Peek(src, SkipWhitespace(src, pos)) == '\n'
    ensures NextToken(src, pos) == Success((Token(Eol, "", Line), SkipWhitespace(src, pos) + 1))
  {
  }

  /** Each of `+ * / ( ) [ ] > < , =` yields its own kind with a one-character
      lexeme. */
  lemma LexPunctuation(src: string, pos: nat)
    requires pos <= |src| && WithinBuffers(src, pos)
    requires PunctKind(Peek(src, SkipWhitespace(src, pos))).Some?
    ensures var p := SkipWhitespace(src, pos);
            NextToken(src, pos) == Success((Token(PunctKind(src[p]).value, [src[p]], Line), p + 1))
  {
  }

  /** No two punctuation characters share a kind, and none of them yields a
      literal, identifier or end marker. */
  lemma PunctKindsDistinct(c: char, d: char)
    requires PunctKind(c).Some? && PunctKind(d).Some?
    ensures PunctKind(c) == PunctKind(d) ==> c == d
    ensures PunctKind(c).value !in {Int, Float, Str, Identifier, Eof, Eol, Error, Minus}
  {
  }

  /** The NUL terminator, or the end of the text, yields EOF without being
      consumed, and it is the only thing that yields EOF. */
  lemma LexEof(src: string, pos: nat)
    requires pos <= |src| && WithinBuffers(src, pos)
    ensures var p := SkipWhitespace(src, pos);
            Peek(src, p) == '\0' ==> NextToken(src, pos) == Success((Token(Eof, "", Line), p))
    ensures NextToken(src, pos).Success? && NextToken(src, pos).value.0.kind == Eof
            <==> Peek(src, SkipWhitespace(src, pos)) == '\0'
  {
  }

  /** A text holding one string literal whose content fits the 256-byte
      buffer tokenizes to that string and EOF, whatever the content looks like
      (a long run of letters inside the quotes is not an identifier). */
  lemma LoneString(content: string)
    requires |content| <= MaxStringLength
    requires forall k | 0 <= k < |content| :: content[k] != '"' && content[k] != '\0'
    ensures var src := "\"" + content + "\"";
            && BuffersHold(src, 0)
            && Tokenize(src, 0) == Success([Token(Str, content, Line), Token(Eof, "", Line)])
  {
    var src := "\"" + content + "\"";
    var n := |content|;
    assert SkipWhitespace(src, 0) == 0;
    assert forall k | 1 <= k < n + 1 :: src[k] == content[k - 1];
    ScanStringStops(src, 1, n + 1);
    assert src[1..n + 1] == content;
    assert NextToken(src, 0) == Success((Token(Str, content, Line), n + 2));
    LexEof(src, n + 2);
    assert NextToken(src, n + 2) == Success((Token(Eof, "", Line), n + 2));
    assert BuffersHold(src, n + 2);
    assert Tokenize(src, n + 2) == Success([Token(Eof, "", Line)]);
    assert [Token(Str, content, Line)] + [Token(Eof, "", Line)] == [Token(Str, content, Line), Token(Eof, "", Line)];
  }

  /** The text from `pos` read as the token stream `toks`: each token follows
      a run of blanks and is spelled out in the text right after it, and the
      stream ends in an EOF that sits at the end of the text or at a NUL. */
  predicate SpellsOut(src: string, pos: nat, toks: seq<Token>)
    requires pos <= |src|
    decreases |toks|
  {
    && |toks| > 0
    && var p := SkipWhitespace(src, pos);
       var s := Spelling(toks[0]);
       && p + |s| <= |src| && src[p..p + |s|] == s
       && if toks[0].kind == Eof then |toks| == 1 && Peek(src, p) == '\0'
          else SpellsOut(src, p + |s|, toks[1..])
  }

  /** The whole stream spells out the text: the blanks the lexer skips and the
      spellings of the tokens it returns, in order, cover the text up to the
      NUL or end where EOF was read. No character is dropped or repeated. */
  lemma {:induction false} TokenizeSpellsOut(src: string, pos: nat)
    requires pos <= |src| && BuffersHold(src, pos)
    ensures Tokenize(src, pos).Success? ==> SpellsOut(src, pos, Tokenize(src, pos).value)
    decreases |src| - pos
  {
    if Tokenize(src, pos).Success? {
      TokenizeStep(src, pos);
      var (tok, q) := NextToken(src, pos).value;
      LexSpelling(src, pos);
      if tok.kind == Eof {
        LexEof(src, pos);
        SpellsOutStep(src, pos, tok, q, []);
      } else {
        TokenizeSpellsOut(src, q);
        SpellsOutStep(src, pos, tok, q, Tokenize(src, q).value);
      }
    }
  }

  /** One call of the stream: a successful run starts with the token of the
      first call and goes on from where that call stopped. */
  lemma TokenizeStep(src: string, pos: nat)
    requires pos <= |src| && BuffersHold(src, pos) && Tokenize(src, pos).Success?
    ensures NextToken(src, pos).Success?
    ensures var (tok, q) := NextToken(src, pos).value;
            && pos <= q <= |src|
            && (tok.kind == Eof ==> Tokenize(src, pos).value == [tok])
            && (tok.kind != Eof ==> BuffersHold(src, q) && Tokenize(src, q).Success?
                                    && Tokenize(src, pos).value == [tok] + Tokenize(src, q).value)
  {
  }

  /** A token spelled out after the blanks at `pos`, then the rest of the
      stream from where its spelling ends. */
  lemma SpellsOutStep(src: string, pos: nat, tok: Token, q: nat, rest: seq<Token>)
    requires pos <= q <= |src|
    requires var p := SkipWhitespace(src, pos); p <= q && src[p..q] == Spelling(tok)
    requires tok.kind == Eof ==> rest == [] && Peek(src, SkipWhitespace(src, pos)) == '\0'
    requires tok.kind != Eof ==> SpellsOut(src, q, rest)
    ensures SpellsOut(src, pos, [tok] + rest)
  {
    assert ([tok] + rest)[0] == tok;
    assert ([tok] + rest)[1..] == rest;
  }

  /** The string loop stops at the first '"' when no NUL comes before it. */
  lemma {:induction false} ScanStringStops(src: string, i: nat, e: nat)
    requires i <= e < |src| && src[e] == '"'
    requires forall k | i <= k < e :: src[k] != '"' && src[k] != '\0'
    ensures ScanString(src, i) == e
    decreases e - i
  {
    if i < e {
      ScanStringStops(src, i + 1, e);
    }
  }

  /** At the end of the text the lexer returns EOF without moving, so asking
      again yields EOF again. */
  lemma LexEofSticks(src: string, pos: nat)
    requires pos <= |src| && WithinBuffers(src, pos)
    requires Peek(src, SkipWhitespace(src, pos)) == '\0'
    ensures NextToken(src, pos) == Success((Token(Eof, "", Line), SkipWhitespace(src, pos)))
    ensures WithinBuffers(src, SkipWhitespace(src, pos))
    ensures NextToken(src, SkipWhitespace(src, pos)) == NextToken(src, pos)
  {
    LexEof(src, pos);
    LexSkipsBlanks(src, pos);
  }

  /** The number `parse_number` scans from the token start `p`: after the first
      character, the longest run of digits with at most one '.', FLOAT exactly
      when that run holds a '.'. */
  lemma NumberRun(src: string, p: nat)
    requires p < |src|
    ensures var (tok, e) := Number(src, p, p + 1);
            && p < e <= |src| && tok.lexeme == src[p..e]
            && (tok.kind == Int || tok.kind == Float)
            && (forall k | 1 <= k < |tok.lexeme| :: IsDigit(tok.lexeme[k]) || tok.lexeme[k] == '.')
            && (forall k, m | 1 <= k < m < |tok.lexeme| && tok.lexeme[k] == '.' :: tok.lexeme[m] != '.')
            && (tok.kind == Float <==> '.' in tok.lexeme[1..])
            && !IsDigit(Peek(src, e))
            && (tok.kind == Int ==> Peek(src, e) != '.')
  {
    NumberChars(src, p);
    NumberKind(src, p);
  }

  /** After its first character a number lexeme holds digits and at most one '.'. */
  lemma NumberChars(src: string, p: nat)
    requires p < |src|
    ensures var (tok, e) := Number(src, p, p + 1);
            && p < e <= |src| && tok.lexeme == src[p..e]
            && (forall k | 1 <= k < |tok.lexeme| :: IsDigit(tok.lexeme[k]) || tok.lexeme[k] == '.')
            && (forall k, m | 1 <= k < m < |tok.lexeme| && tok.lexeme[k] == '.' :: tok.lexeme[m] != '.')
  {
  }

  /** A number is FLOAT exactly when a '.' follows its first character. */
  lemma NumberKind(src: string, p: nat)
    requires p < |src|
    ensures var (tok, e) := Number(src, p, p + 1);
            tok.kind == Float <==> '.' in tok.lexeme[1..]
  {
    var (tok, e) := Number(src, p, p + 1);
    var (e', dot) := ScanNumber(src, p + 1, false);
    assert tok.lexeme[1..] == src[p + 1..e];
    if '.' in tok.lexeme[1..] {
      var k :| 0 <= k < |tok.lexeme[1..]| && tok.lexeme[1..][k] == '.';
      assert src[p + 1 + k] == '.';
    }
    if dot {
      var k :| p + 1 <= k < e && src[k] == '.';
      assert tok.lexeme[1..][k - p - 1] == '.';
    }
  }

  /** A '.' appears in `s` exactly when it appears after a first character that
      is not one. */
  lemma DotAfterFirst(s: string)
    requires |s| > 0 && s[0] != '.'
    ensures '.' in s <==> '.' in s[1..]
  {
    if '.' in s {
      var k :| 0 <= k < |s| && s[k] == '.';
      assert s[1..][k - 1] == '.';
    }
  }

  /** A token starting with a digit is a number: the longest run of digits with
      at most one '.', FLOAT exactly when the run holds a '.'. */
  lemma LexNumber(src: string, pos: nat)
    requires pos <= |src| && WithinBuffers(src, pos)
    requires IsDigit(Peek(src, SkipWhitespace(src, pos)))
    ensures NextToken(src, pos).Success?
    ensures var (tok, q) := NextToken(src, pos).value;
            var p := SkipWhitespace(src, pos);
            && p < q && tok.lexeme == src[p..q]
            && (tok.kind == Int || tok.kind == Float)
            && (forall k | 0 <= k < |tok.lexeme| :: IsDigit(tok.lexeme[k]) || tok.lexeme[k] == '.')
            && (forall k, m | 0 <= k < m < |tok.lexeme| && tok.lexeme[k] == '.' :: tok.lexeme[m] != '.')
            && (tok.kind == Float <==> '.' in tok.lexeme)
            && !IsDigit(Peek(src, q))
            && (tok.kind == Int ==> Peek(src, q) != '.')
  {
    var p := SkipWhitespace(src, pos);
    NextIsNumber(src, pos, p);
    DigitRun(src, p);
  }

  /** A digit, or a '-' before one, makes `lexer_next_token` scan a number from
      the token start. */
  lemma NextIsNumber(src: string, pos: nat, p: nat)
    requires pos <= |src| && WithinBuffers(src, pos) && p == SkipWhitespace(src, pos)
    requires IsDigit(Peek(src, p)) || (Peek(src, p) == '-' && IsDigit(Peek(src, p + 1)))
    ensures p < |src| && NextToken(src, pos) == Success(Number(src, p, p + 1))
  {
  }

  /** The number scanned from a digit, stated on its whole lexeme. */
  lemma DigitRun(src: string, p: nat)
    requires p < |src| && IsDigit(src[p])
    ensures var (tok, q) := Number(src, p, p + 1);
            && p < q && tok.lexeme == src[p..q]
            && (tok.kind == Int || tok.kind == Float)
            && (forall k | 0 <= k < |tok.lexeme| :: IsDigit(tok.lexeme[k]) || tok.lexeme[k] == '.')
            && (forall k, m | 0 <= k < m < |tok.lexeme| && tok.lexeme[k] == '.' :: tok.lexeme[m] != '.')
            && (tok.kind == Float <==> '.' in tok.lexeme)
            && !IsDigit(Peek(src, q))
            && (tok.kind == Int ==> Peek(src, q) != '.')
  {
    NumberRun(src, p);
    DotAfterFirst(Number(src, p, p + 1).0.lexeme);
  }

  /** '-' followed by a digit starts a number whose lexeme keeps the '-';
      otherwise it is the MINUS token. */
  lemma LexMinus(src: string, pos: nat)
    requires pos <= |src| && WithinBuffers(src, pos)
    requires Peek(src, SkipWhitespace(src, pos)) == '-'
    ensures NextToken(src, pos).Success?
    ensures var (tok, q) := NextToken(src, pos).value;
            var p := SkipWhitespace(src, pos);
            if IsDigit(Peek(src, p + 1)) then
              && (tok.kind == Int || tok.kind == Float)
              && tok.lexeme == src[p..q] && |tok.lexeme| >= 2 && tok.lexeme[0] == '-'
              && (tok.kind == Float <==> '.' in tok.lexeme)
            else
              tok == Token(Minus, "-", Line) && q == p + 1
  {
    var p := SkipWhitespace(src, pos);
    if IsDigit(Peek(src, p + 1)) {
      NextIsNumber(src, pos, p);
      NumberRun(src, p);
      DotAfterFirst(Number(src, p, p + 1).0.lexeme);
    }
  }

  /** A string token is the text between the quotes, quotes excluded; when no
      closing quote follows, the lexer fails. */
  lemma LexString(src: string, pos: nat)
    requires pos <= |src| && WithinBuffers(src, pos)
    requires Peek(src, SkipWhitespace(src, pos)) == '"'
    ensures var p := SkipWhitespace(src, pos);
            NextToken(src, pos).Failure? <==> !QuoteAhead(src, p + 1)
    ensures NextToken(src, pos).Failure? ==> NextToken(src, pos).error == UnterminatedString(Line)
    ensures NextToken(src, pos).Success? ==>
            var (tok, q) := NextToken(src, pos).value;
            var p := SkipWhitespace(src, pos);
            && tok.kind == Str && p + 2 <= q && src[q - 1] == '"'
            && tok.lexeme == src[p + 1..q - 1] && '"' !in tok.lexeme
  {
    var p := SkipWhitespace(src, pos);
    var e := ScanString(src, p + 1);
    if Peek(src, e) == '"' {
      assert QuoteAhead(src, p + 1) by {
        assert e < |src| && src[e] == '"';
      }
    }
  }

  /** An identifier starts with a letter or '_' and runs over every following
      letter, digit and '_'. */
  lemma LexIdentifier(src: string, pos: nat)
    requires pos <= |src| && WithinBuffers(src, pos)
    requires var c := Peek(src, SkipWhitespace(src, pos)); IsAlpha(c) || c == '_'
    ensures NextToken(src, pos).Success?
    ensures var (tok, q) := NextToken(src, pos).value;
            var p := SkipWhitespace(src, pos);
            && tok.kind == Identifier && p < q && tok.lexeme == src[p..q]
            && (forall k | 0 <= k < |tok.lexeme| :: IsWordChar(tok.lexeme[k]))
            && !IsWordChar(Peek(src, q))
  {
  }

  /** A character that starts no token is a fatal error. */
  lemma LexUnknown(src: string, pos: nat)
    requires pos <= |src| && WithinBuffers(src, pos)
    requires var c := Peek(src, SkipWhitespace(src, pos));
             c != '\0' && c != '\n' && c != '-' && c != '"' && PunctKind(c).None? && !IsWordChar(c)
    ensures NextToken(src, pos) == Failure(UnknownCharacter(Peek(src, SkipWhitespace(src, pos)), Line))
  {
  }
}

=== FILE: parser.dfy ===
/** The recursive-descent parser of src/parser/parser.c.

    The parser reads the tokens the lexer hands it one at a time. Here that
    stream is a sequence of tokens that ends in EOF, and the parser's
    `current` token is a cursor into it. Every parse function returns the node
    it built, or None where the C code returns NULL, together with the cursor
    it left behind: a NULL result does not roll the cursor back. Allocation is
    assumed to succeed, so an AST constructor is a datatype constructor. */
module Parser {
  import opened Wrappers
  import opened Lexer

  /** A token as the parser reads it: `integer` is the value an INT token
      carries into a Literal. */
  datatype PToken = PToken(kind: TokenKind, lexeme: string, integer: int)

  /** The AST, one variant per `ast_node_type_t`. A child is optional because
      `parse_expression` and `parse_term` build a binary node even when the left
      operand came back NULL. */
  datatype Node =
    | Literal(literal: int)
    | BinaryOp(op: char, left: Option<Node>, right: Option<Node>)
    | UnaryOp(op: char, operand: Option<Node>)
    | Variable(name: string)
    | Assignment(name: string, value: Option<Node>)
    | Declaration(name: string, typeName: string, value: Option<Node>)

  /** Error propagation: a NULL right operand, unary operand or assigned value
      makes its whole statement NULL, so the only NULL that survives inside a
      tree is the left operand of a binary node. */
  predicate HolesOnLeft(n: Node)
  {
    match n
    case Literal(_) => true
    case Variable(_) => true
    case BinaryOp(_, l, r) => r.Some? && HolesOnLeft(r.value) && (l.Some? ==> HolesOnLeft(l.value))
    case UnaryOp(_, x) => x.Some? && HolesOnLeft(x.value)
    case Assignment(_, v) => v.Some? && HolesOnLeft(v.value)
    case Declaration(_, _, v) => v.Some? ==> HolesOnLeft(v.value)
  }

  predicate Sound(n: Option<Node>)
  {
    n.Some? ==> HolesOnLeft(n.value)
  }

  /** The result of a parse function: the node (None for NULL) and the cursor. */
  datatype Parsed = Parsed(node: Option<Node>, next: nat)

  /** A token stream: it ends in EOF, where the parser stops advancing. */
  predicate Stream(toks: seq<PToken>)
  {
    |toks| > 0 && toks[|toks| - 1].kind == Eof
  }

  /** `parser_advance`: move to the next token, except at EOF. */
  function Advance(toks: seq<PToken>, pos: nat): (r: nat)
    requires Stream(toks) && pos < |toks|
    ensures pos <= r < |toks|
  {
    if toks[pos].kind == Eof then pos else pos + 1
  }

  /** `lexeme[0]`: the operator character of a token. */
  function FirstChar(s: string): char
  {
    if |s| > 0 then s[0] else '\0'
  }

  predicate IsAdditive(k: TokenKind)
  {
    k == Plus || k == Minus
  }

  predicate IsMultiplicative(k: TokenKind)
  {
    k == Star || k == Slash
  }

  /** `parse_expression`: a term, then any number of `+`/`-` terms. */
  function Expression(toks: seq<PToken>, pos: nat): (r: Parsed)
    requires Stream(toks) && pos < |toks|
    ensures pos <= r.next < |toks|
    ensures r.node.Some? && r.next == pos ==> toks[pos].kind == Identifier
    ensures Sound(r.node)
    decreases |toks| - pos, 4
  {
    var t := Term(toks, pos);
    ExprTail(toks, t.node, t.next)
  }

  /** The loop of `parse_expression`, with `left` the node built so far. */
  function ExprTail(toks: seq<PToken>, left: Option<Node>, pos: nat): (r: Parsed)
    requires Stream(toks) && pos < |toks| && Sound(left)
    ensures Sound(r.node)
    ensures pos <= r.next < |toks|
    ensures r.next == pos ==> r.node == left
    ensures !IsAdditive(toks[pos].kind) ==> r == Parsed(left, pos)
    ensures IsAdditive(toks[pos].kind) && Term(toks, Advance(toks, pos)).node.None? ==> r.node.None?
    decreases |toks| - pos, 3
  {
    if IsAdditive(toks[pos].kind) then
      var right := Term(toks, Advance(toks, pos));
      if right.node.None? then Parsed(None, right.next)
      else ExprTail(toks, Some(BinaryOp(FirstChar(toks[pos].lexeme), left, right.node)), right.next)
    else Parsed(left, pos)
  }

  /** `parse_term`: a factor, then any number of `*`/`/` factors. */
  function Term(toks: seq<PToken>, pos: nat): (r: Parsed)
    requires Stream(toks) && pos < |toks|
    ensures pos <= r.next < |toks|
    ensures r.node.Some? && r.next == pos ==> toks[pos].kind == Identifier
    ensures Sound(r.node)
    decreases |toks| - pos, 2
  {
    var f := Factor(toks, pos);
    TermTail(toks, f.node, f.next)
  }

  /** The loop of `parse_term`, with `left` the node built so far. */
  function TermTail(toks: seq<PToken>, left: Option<Node>, pos: nat): (r: Parsed)
    requires Stream(toks) && pos < |toks| && Sound(left)
    ensures Sound(r.node)
    ensures pos <= r.next < |toks|
    ensures r.next == pos ==> r.node == left
    ensures !IsMultiplicative(toks[pos].kind) ==> r == Parsed(left, pos)
    ensures IsMultiplicative(toks[pos].kind) && Factor(toks, Advance(toks, pos)).node.None? ==> r.node.None?
    decreases |toks| - pos, 1
  {
    if IsMultiplicative(toks[pos].kind) then
      var right := Factor(toks, Advance(toks, pos));
      if right.node.None? then Parsed(None, right.next)
      else TermTail(toks, Some(BinaryOp(FirstChar(toks[pos].lexeme), left, right.node)), right.next)
    else Parsed(left, pos)
  }

  /** The tokens `parse_factor` accepts at the start of a factor. */
  predicate StartsFactor(k: TokenKind)
  {
    k in {Int, LParen, Minus, Bang, Identifier}
  }

  /** `parse_factor`: an integer, a parenthesised expression, a unary `-` or
      `!`, or a variable. The variable case leaves its token unconsumed, and
      any other token is an error reported without consuming it. */
  function Factor(toks: seq<PToken>, pos: nat): (r: Parsed)
    requires Stream(toks) && pos < |toks|
    ensures pos <= r.next < |toks|
    ensures r.node.Some? && r.next == pos ==> toks[pos].kind == Identifier
    ensures Sound(r.node)
    decreases |toks| - pos, 1
  {
    var tok := toks[pos];
    match tok.kind
    case Int => Parsed(Some(Literal(tok.integer)), Advance(toks, pos))
    case LParen =>
      var inner := Expression(toks, Advance(toks, pos));
      if inner.node.None? || toks[inner.next].kind != RParen then Parsed(None, inner.next)
      else Parsed(inner.node, Advance(toks, inner.next))
    case Minus =>
      Unary(toks, pos)
    case Bang =>
      Unary(toks, pos)
    case Identifier => Parsed(Some(Variable(tok.lexeme)), pos)
    case _ => Parsed(None, pos)
  }

  /** The `-`/`!` case of `parse_factor`: the operator wraps the factor after it. */
  function Unary(toks: seq<PToken>, pos: nat): (r: Parsed)
    requires Stream(toks) && pos < |toks| && toks[pos].kind != Eof
    ensures pos < r.next < |toks|
    ensures r.node.None? <==> Factor(toks, pos + 1).node.None?
    ensures Sound(r.node)
    decreases |toks| - pos, 0
  {
    var operand := Factor(toks, pos + 1);
    if operand.node.None? then Parsed(None, operand.next)
    else Parsed(Some(UnaryOp(FirstChar(toks[pos].lexeme), operand.node)), operand.next)
  }

  /** `parse_assignment`: `x : T`, `x : T = e` or `x = e`; anything else after
      the identifier is an error. */
  function AssignmentStatement(toks: seq<PToken>, pos: nat): (r: Parsed)
    requires Stream(toks) && pos < |toks|
    ensures pos <= r.next < |toks|
    ensures toks[pos].kind == Identifier ==> pos < r.next
    ensures toks[pos].kind != Identifier ==> r == Parsed(None, pos)
    ensures Sound(r.node)
  {
    var name := toks[pos].lexeme;
    if toks[pos].kind != Identifier then Parsed(None, pos)
    else
      var p1 := Advance(toks, pos);
      if toks[p1].kind == Colon then
        var p2 := Advance(toks, p1);
        var typeName := toks[p2].lexeme;
        var p3 := Advance(toks, p2);
        if toks[p3].kind == Equal then
          var value := Expression(toks, Advance(toks, p3));
          if value.node.None? then Parsed(None, value.next)
          else Parsed(Some(Declaration(name, typeName, value.node)), value.next)
        else Parsed(Some(Declaration(name, typeName, None)), p3)
      else if toks[p1].kind == Equal then
        var value := Expression(toks, Advance(toks, p1));
        if value.node.None? then Parsed(None, value.next)
        else Parsed(Some(Assignment(name, value.node)), value.next)
      else Parsed(None, p1)
  }

  /** `parse_statement`: an assignment or declaration when the statement starts
      with an identifier, an expression otherwise; one EOL after it is consumed. */
  function Statement(toks: seq<PToken>, pos: nat): (r: Parsed)
    requires Stream(toks) && pos < |toks|
    ensures pos <= r.next < |toks|
    ensures r.node.Some? ==> pos < r.next
    ensures Sound(r.node)
  {
    var s := if toks[pos].kind == Identifier then AssignmentStatement(toks, pos) else Expression(toks, pos);
    Parsed(s.node, if toks[s.next].kind == Eol then Advance(toks, s.next) else s.next)
  }

  /** The inner loop of `parse_root`: the first token at or after `pos` that is
      not an EOL. */
  function SkipEols(toks: seq<PToken>, pos: nat): (r: nat)
    requires Stream(toks) && pos < |toks|
    ensures pos <= r < |toks| && toks[r].kind != Eol
    ensures forall k | pos <= k < r :: toks[k].kind == Eol
    decreases |toks| - pos
  {
    if toks[pos].kind == Eol then SkipEols(toks, Advance(toks, pos)) else pos
  }

  /** `parse_root` from cursor `pos`, with `acc` the statements collected so
      far: None as soon as a statement fails. */
  function Root(toks: seq<PToken>, pos: nat, acc: seq<Node>): (r: Option<seq<Node>>)
    requires Stream(toks) && pos < |toks|
    ensures r.Some? ==> |acc| <= |r.value| && r.value[..|acc|] == acc
    ensures r.Some? && (forall k | 0 <= k < |acc| :: HolesOnLeft(acc[k])) ==>
              forall k | 0 <= k < |r.value| :: HolesOnLeft(r.value[k])
    decreases |toks| - pos
  {
    if toks[pos].kind == Eof then Some(acc)
    else
      var p := SkipEols(toks, pos);
      if toks[p].kind == Eof then Some(acc)
      else
        var s := Statement(toks, p);
        if s.node.None? then None
        else
          var acc' := acc + [s.node.value];
          var r := Root(toks, s.next, acc');
          assert r.Some? ==> r.value[..|acc|] == acc'[..|acc|];
          assert (forall k | 0 <= k < |acc| :: HolesOnLeft(acc[k])) ==>
                 forall k | 0 <= k < |acc'| :: HolesOnLeft(acc'[k]);
          r
  }

  /** A whole program: `parse_root` on a fresh parser, whose cursor starts at
      the first token. An empty file is the empty program, and in every
      statement of a parsed program the only NULL children are left operands. */
  function ParseProgram(toks: seq<PToken>): (r: Option<seq<Node>>)
    requires Stream(toks)
    ensures toks[0].kind == Eof ==> r == Some([])
    ensures r.Some? ==> forall k | 0 <= k < |r.value| :: HolesOnLeft(r.value[k])
  {
    Root(toks, 0, [])
  }
}

=== FILE: parser_properties.dfy ===
/** Properties of the parser: its cursor discipline, the trees it builds for
    operators, parentheses and statements, and how `parse_root` collects them. */
module ParserProperties {
  import opened Wrappers
  import opened Lexer
  import opened Parser
  import opened Rendering

  // ---------------------------------------------------------------------------
  // The cursor

  /** `n` successive `parser_advance` calls. */
  function AdvanceTimes(toks: seq<PToken>, pos: nat, n: nat): (r: nat)
    requires Stream(toks) && pos < |toks|
    ensures pos <= r < |toks|
    decreases n
  {
    if n == 0 then pos else AdvanceTimes(toks, Advance(toks, pos), n - 1)
  }

  /** Once the current token is EOF, advancing never moves the cursor again. */
  lemma {:induction false} AdvanceSticksAtEof(toks: seq<PToken>, pos: nat, n: nat)
    requires Stream(toks) && pos < |toks| && toks[pos].kind == Eof
    ensures AdvanceTimes(toks, pos, n) == pos
  {
    if n > 0 {
      AdvanceSticksAtEof(toks, pos, n - 1);
    }
  }

  /** Advancing moves one token at a time until it reaches an EOF, and never
      runs off the stream: enough advances always land on an EOF. */
  lemma {:induction false} AdvanceReachesEof(toks: seq<PToken>, pos: nat, n: nat)
    requires Stream(toks) && pos < |toks|
    ensures var r := AdvanceTimes(toks, pos, n);
            r == pos + n || toks[r].kind == Eof
    ensures pos + n >= |toks| ==> toks[AdvanceTimes(toks, pos, n)].kind == Eof
    decreases n
  {
    if n > 0 {
      AdvanceReachesEof(toks, Advance(toks, pos), n - 1);
      if toks[pos].kind == Eof {
        AdvanceSticksAtEof(toks, pos, n);
      }
    }
  }

  // ---------------------------------------------------------------------------
  // Parsing what Render writes

  /** The two ways of cutting `pre + R + post`, with `R` spelt
      `[t1] + s2 + [t3] + s4 + [t5]`, around `s2` and `s4`, and the tokens
      between them. */
  lemma SplitBracketed(toks: seq<PToken>, pre: seq<PToken>, R: seq<PToken>, t1: PToken, s2: seq<PToken>, t3: PToken, s4: seq<PToken>, t5: PToken,
                       post: seq<PToken>, pos: nat)
    requires toks == pre + R + post && R == [t1] + s2 + [t3] + s4 + [t5] && pos == |pre|
    ensures toks == (pre + [t1]) + s2 + ([t3] + s4 + [t5] + post)
    ensures toks == (pre + [t1] + s2 + [t3]) + s4 + ([t5] + post)
    ensures pos + 1 + |s2| + 1 + |s4| < |toks| && toks[pos] == t1
    ensures toks[pos + 1 + |s2|] == t3 && toks[pos + 1 + |s2| + 1 + |s4|] == t5
    ensures |pre + [t1]| == pos + 1 && |pre + [t1] + s2 + [t3]| == pos + 1 + |s2| + 1
  {
    assert toks == (pre + [t1]) + s2 + ([t3] + s4 + [t5] + post);
    assert toks == (pre + [t1] + s2 + [t3]) + s4 + ([t5] + post);
  }

  /** Cutting `pre + [t] + s + post` around `s`. */
  lemma SplitPrefixed(toks: seq<PToken>, pre: seq<PToken>, t: PToken, s: seq<PToken>, post: seq<PToken>, pos: nat)
    requires toks == pre + ([t] + s) + post && pos == |pre|
    ensures toks == (pre + [t]) + s + post && pos < |toks| && toks[pos] == t && |pre + [t]| == pos + 1
  {
    assert pre + ([t] + s) + post == (pre + [t]) + s + post;
  }

  /** The tokens `toks`, cut as `pre + Render(e) + post`, hold `e` placed at the
      cut. */
  lemma {:induction false} RenderPlaced(toks: seq<PToken>, pos: nat, pre: seq<PToken>, e: Node, post: seq<PToken>)
    requires Printable(e) && toks == pre + Render(e) + post && pos == |pre|
    ensures Placed(toks, pos, e)
    decreases e, 1
  {
    match e
    case Literal(v) =>
      assert toks[pos] == Render(e)[0];
    case UnaryOp(op, Some(x)) =>
      RenderPlacedUnary(toks, pos, pre, op, x, post);
    case BinaryOp(op, Some(l), Some(r)) =>
      RenderPlacedBinary(toks, pos, pre, op, l, r, post);
  }

  lemma {:induction false} RenderPlacedUnary(toks: seq<PToken>, pos: nat, pre: seq<PToken>, op: char, x: Node, post: seq<PToken>)
    requires Printable(UnaryOp(op, Some(x))) && toks == pre + Render(UnaryOp(op, Some(x))) + post && pos == |pre|
    ensures Placed(toks, pos, UnaryOp(op, Some(x)))
    decreases UnaryOp(op, Some(x)), 0
  {
    SplitPrefixed(toks, pre, OperatorToken(op), Render(x), post, pos);
    RenderPlaced(toks, pos + 1, pre + [OperatorToken(op)], x, post);
  }

  lemma {:induction false} RenderPlacedBinary(toks: seq<PToken>, pos: nat, pre: seq<PToken>, op: char, l: Node, r: Node, post: seq<PToken>)
    requires Printable(BinaryOp(op, Some(l), Some(r))) && toks == pre + Render(BinaryOp(op, Some(l), Some(r))) + post
    requires pos == |pre|
    ensures Placed(toks, pos, BinaryOp(op, Some(l), Some(r)))
    decreases BinaryOp(op, Some(l), Some(r)), 0
  {
    RenderBrackets(toks, pos, pre, op, l, r, post);
    RenderPlacedLeft(toks, pos, pre, op, l, r, post);
    var q := pos + 1 + |Render(l)| + 1;
    RenderPlacedRight(toks, pos, pre, op, l, r, post, q);
    PlacedBinary(toks, pos, op, l, r, q);
  }

  /** The brackets and the operator of a rendered binary node. */
  lemma RenderBrackets(toks: seq<PToken>, pos: nat, pre: seq<PToken>, op: char, l: Node, r: Node, post: seq<PToken>)
    requires toks == pre + Render(BinaryOp(op, Some(l), Some(r))) + post && pos == |pre|
    ensures pos + 1 + |Render(l)| + 1 + |Render(r)| < |toks|
    ensures toks[pos] == PToken(LParen, "(", 0)
    ensures toks[pos + 1 + |Render(l)|] == OperatorToken(op)
    ensures toks[pos + 1 + |Render(l)| + 1 + |Render(r)|] == PToken(RParen, ")", 0)
  {
    RenderBinary(op, l, r);
    SplitBracketed(toks, pre, Render(BinaryOp(op, Some(l), Some(r))), PToken(LParen, "(", 0), Render(l), OperatorToken(op), Render(r),
                   PToken(RParen, ")", 0), post, pos);
  }

  /** The tokens of a binary node, one level down. */
  lemma RenderBinary(op: char, l: Node, r: Node)
    ensures Render(BinaryOp(op, Some(l), Some(r))) ==
            [PToken(LParen, "(", 0)] + Render(l) + [OperatorToken(op)] + Render(r) + [PToken(RParen, ")", 0)]
    ensures |Render(BinaryOp(op, Some(l), Some(r)))| == |Render(l)| + |Render(r)| + 3
  {
  }

  lemma {:induction false} RenderPlacedLeft(toks: seq<PToken>, pos: nat, pre: seq<PToken>, op: char, l: Node, r: Node, post: seq<PToken>)
    requires Printable(BinaryOp(op, Some(l), Some(r))) && toks == pre + Render(BinaryOp(op, Some(l), Some(r))) + post
    requires pos == |pre|
    ensures Placed(toks, pos + 1, l)
    decreases l, 2
  {
    var open, mid, close := PToken(LParen, "(", 0), OperatorToken(op), PToken(RParen, ")", 0);
    RenderBinary(op, l, r);
    SplitBracketed(toks, pre, Render(BinaryOp(op, Some(l), Some(r))), open, Render(l), mid, Render(r), close, post, pos);
    RenderPlaced(toks, pos + 1, pre + [open], l, [mid] + Render(r) + [close] + post);
  }

  lemma {:induction false} RenderPlacedRight(toks: seq<PToken>, pos: nat, pre: seq<PToken>, op: char, l: Node, r: Node, post: seq<PToken>, q: nat)
    requires Printable(BinaryOp(op, Some(l), Some(r))) && toks == pre + Render(BinaryOp(op, Some(l), Some(r))) + post
    requires pos == |pre| && q == pos + 1 + |Render(l)| + 1
    ensures Placed(toks, q, r)
    decreases r, 2
  {
    var open, mid, close := PToken(LParen, "(", 0), OperatorToken(op), PToken(RParen, ")", 0);
    RenderBinary(op, l, r);
    SplitBracketed(toks, pre, Render(BinaryOp(op, Some(l), Some(r))), open, Render(l), mid, Render(r), close, post, pos);
    RenderPlaced(toks, q, pre + [open] + Render(l) + [mid], r, [close] + post);
  }

  lemma {:induction false} FactorParsesPlaced(toks: seq<PToken>, pos: nat, e: Node)
    requires Stream(toks) && Printable(e) && Placed(toks, pos, e) && pos + |Render(e)| < |toks|
    ensures Factor(toks, pos) == Parsed(Some(e), pos + |Render(e)|)
    decreases e, 2
  {
    match e
    case Literal(v) =>
      LiteralFactor(toks, pos);
    case UnaryOp(op, Some(x)) =>
      FactorParsesPlaced(toks, pos + 1, x);
      UnaryFactor(toks, pos, op, x, pos + 1 + |Render(x)|);
    case BinaryOp(op, Some(l), Some(r)) =>
      RenderBinary(op, l, r);
      FactorParsesPlacedBinary(toks, pos, op, l, r, pos + 1 + |Render(l)| + 1);
  }

  lemma {:induction false} FactorParsesPlacedBinary(toks: seq<PToken>, pos: nat, op: char, l: Node, r: Node, q: nat)
    requires Stream(toks) && Printable(l) && Printable(r) && op in "+-*/" && Placed(toks, pos, BinaryOp(op, Some(l), Some(r)))
    requires q == pos + 1 + |Render(l)| + 1 && q + |Render(r)| < |toks|
    ensures Factor(toks, pos) == Parsed(Some(BinaryOp(op, Some(l), Some(r))), q + |Render(r)| + 1)
    decreases BinaryOp(op, Some(l), Some(r)), 1
  {
    OperandsParse(toks, pos, op, l, r, q);
    ParenthesisedBinary(toks, pos, op, l, r, pos + 1 + |Render(l)|, q, q + |Render(r)|);
  }

  /** The operands of a placed binary node parse as factors. */
  lemma {:induction false} OperandsParse(toks: seq<PToken>, pos: nat, op: char, l: Node, r: Node, q: nat)
    requires Stream(toks) && Printable(l) && Printable(r) && Placed(toks, pos, BinaryOp(op, Some(l), Some(r)))
    requires q == pos + 1 + |Render(l)| + 1 && q + |Render(r)| < |toks|
    ensures BinaryLayout(toks, pos, op, l, r, pos + 1 + |Render(l)|, q, q + |Render(r)|)
    decreases BinaryOp(op, Some(l), Some(r)), 0
  {
    PlacedBinaryParts(toks, pos, op, l, r, q);
    FactorParsesPlaced(toks, pos + 1, l);
    FactorParsesPlaced(toks, q, r);
  }

  /** Parsing is the inverse of rendering: a factor position holding the tokens
      of a printable tree, whatever precedes and follows them, yields exactly
      that tree and moves past its tokens. */
  lemma FactorParsesRender(pre: seq<PToken>, e: Node, post: seq<PToken>)
    requires Printable(e) && |post| > 0 && Stream(pre + Render(e) + post)
    ensures Factor(pre + Render(e) + post, |pre|) == Parsed(Some(e), |pre| + |Render(e)|)
  {
    RenderPlaced(pre + Render(e) + post, |pre|, pre, e, post);
    FactorParsesPlaced(pre + Render(e) + post, |pre|, e);
  }

  /** An INT token is a Literal holding its value. */
  lemma LiteralFactor(toks: seq<PToken>, pos: nat)
    requires Stream(toks) && pos < |toks| && toks[pos].kind == Int
    ensures Factor(toks, pos) == Parsed(Some(Literal(toks[pos].integer)), pos + 1)
  {
  }

  /** A unary `-` or `!` wraps the factor after it. */
  lemma UnaryFactor(toks: seq<PToken>, pos: nat, op: char, x: Node, p: nat)
    requires Stream(toks) && pos < |toks| && op in "-!" && toks[pos] == OperatorToken(op)
    requires pos + 1 < |toks| && Factor(toks, pos + 1) == Parsed(Some(x), p)
    ensures Factor(toks, pos) == Parsed(Some(UnaryOp(op, Some(x))), p)
  {
  }

  /** A term starts with a factor, then runs the loop of `parse_term`. */
  lemma TermStart(toks: seq<PToken>, pos: nat, x: Node, p: nat)
    requires Stream(toks) && pos < |toks| && Factor(toks, pos) == Parsed(Some(x), p)
    ensures p < |toks| && Sound(Some(x)) && Term(toks, pos) == TermTail(toks, Some(x), p)
  {
  }

  /** One round of the `parse_term` loop: `* right` or `/ right` joins the left node. */
  lemma TermTailStep(toks: seq<PToken>, left: Option<Node>, pos: nat, op: char, rpos: nat, right: Node, q: nat)
    requires Stream(toks) && pos < |toks| && Sound(left) && op in "*/" && toks[pos] == OperatorToken(op)
    requires rpos == pos + 1 < |toks| && Factor(toks, rpos) == Parsed(Some(right), q)
    ensures q < |toks| && Sound(Some(BinaryOp(op, left, Some(right))))
    ensures TermTail(toks, left, pos) == TermTail(toks, Some(BinaryOp(op, left, Some(right))), q)
  {
  }

  /** The `parse_term` loop ends at a token that is not `*` or `/`. */
  lemma TermTailStops(toks: seq<PToken>, left: Option<Node>, pos: nat)
    requires Stream(toks) && pos < |toks| && Sound(left) && !IsMultiplicative(toks[pos].kind)
    ensures TermTail(toks, left, pos) == Parsed(left, pos)
  {
  }

  /** A factor followed by no `*` or `/` is a whole term. */
  lemma TermOfFactor(toks: seq<PToken>, pos: nat, x: Node, p: nat)
    requires Stream(toks) && pos < |toks| && Factor(toks, pos) == Parsed(Some(x), p)
    requires p < |toks| && !IsMultiplicative(toks[p].kind)
    ensures Term(toks, pos) == Parsed(Some(x), p)
  {
    TermStart(toks, pos, x, p);
    TermTailStops(toks, Some(x), p);
  }

  /** An expression starts with a term, then runs the loop of `parse_expression`. */
  lemma ExpressionStart(toks: seq<PToken>, pos: nat, x: Node, p: nat)
    requires Stream(toks) && pos < |toks| && Term(toks, pos) == Parsed(Some(x), p)
    ensures p < |toks| && Sound(Some(x)) && Expression(toks, pos) == ExprTail(toks, Some(x), p)
  {
  }

  /** One round of the `parse_expression` loop: `+ right` or `- right` joins the
      left node. */
  lemma ExprTailStep(toks: seq<PToken>, left: Option<Node>, pos: nat, op: char, rpos: nat, right: Node, q: nat)
    requires Stream(toks) && pos < |toks| && Sound(left) && op in "+-" && toks[pos] == OperatorToken(op)
    requires rpos == pos + 1 < |toks| && Term(toks, rpos) == Parsed(Some(right), q)
    ensures q < |toks| && Sound(Some(BinaryOp(op, left, Some(right))))
    ensures ExprTail(toks, left, pos) == ExprTail(toks, Some(BinaryOp(op, left, Some(right))), q)
  {
  }

  /** The `parse_expression` loop ends at a token that is not `+` or `-`. */
  lemma ExprTailStops(toks: seq<PToken>, left: Option<Node>, pos: nat)
    requires Stream(toks) && pos < |toks| && Sound(left) && !IsAdditive(toks[pos].kind)
    ensures ExprTail(toks, left, pos) == Parsed(left, pos)
  {
  }

  /** An expression whose first term is a lone factor continues with the
      `parse_expression` loop right after that factor. */
  lemma ExprOfFactor(toks: seq<PToken>, pos: nat, x: Node, p: nat)
    requires Stream(toks) && pos < |toks| && Factor(toks, pos) == Parsed(Some(x), p)
    requires p < |toks| && !IsMultiplicative(toks[p].kind)
    ensures Sound(Some(x)) && Expression(toks, pos) == ExprTail(toks, Some(x), p)
  {
    TermOfFactor(toks, pos, x, p);
    ExpressionStart(toks, pos, x, p);
  }

  /** One round of the `parse_expression` loop whose right term is a lone factor. */
  lemma SumStep(toks: seq<PToken>, left: Option<Node>, pos: nat, op: char, rpos: nat, right: Node, q: nat)
    requires Stream(toks) && pos + 1 < |toks| && Sound(left) && op in "+-" && toks[pos] == OperatorToken(op)
    requires rpos == pos + 1 && Factor(toks, rpos) == Parsed(Some(right), q)
    requires q < |toks| && !IsMultiplicative(toks[q].kind)
    ensures Sound(Some(BinaryOp(op, left, Some(right))))
    ensures ExprTail(toks, left, pos) == ExprTail(toks, Some(BinaryOp(op, left, Some(right))), q)
  {
    TermOfFactor(toks, rpos, right, q);
    ExprTailStep(toks, left, pos, op, rpos, right, q);
  }

  /** `l * r` or `l / r` followed by no `*` or `/` is a whole term. */
  lemma TermProduct(toks: seq<PToken>, pos: nat, l: Node, op: char, rpos: nat, r: Node, p1: nat, p2: nat)
    requires Stream(toks) && pos < p1 < p2 < |toks| && op in "*/" && toks[p1] == OperatorToken(op)
    requires Factor(toks, pos) == Parsed(Some(l), p1)
    requires rpos == p1 + 1 && Factor(toks, rpos) == Parsed(Some(r), p2)
    requires !IsMultiplicative(toks[p2].kind)
    ensures Term(toks, pos) == Parsed(Some(BinaryOp(op, Some(l), Some(r))), p2)
  {
    TermStart(toks, pos, l, p1);
    TermTailStep(toks, Some(l), p1, op, rpos, r, p2);
    TermTailStops(toks, Some(BinaryOp(op, Some(l), Some(r))), p2);
  }

  /** `( e )` is the factor `e`, with the cursor after the ')'. */
  lemma ParenthesisedFactor(toks: seq<PToken>, pos: nat, x: Node, p: nat)
    requires Stream(toks) && pos + 1 < |toks| && toks[pos].kind == LParen
    requires Expression(toks, pos + 1) == Parsed(Some(x), p) && toks[p].kind == RParen
    ensures Factor(toks, pos) == Parsed(Some(x), p + 1)
  {
  }

  /** The tokens `( l op r )` from `pos`, with `l` parsing as a factor up to the
      operator at `p1` and `r` from `rpos` up to the ')' at `p2`. */
  predicate BinaryLayout(toks: seq<PToken>, pos: nat, op: char, l: Node, r: Node, p1: nat, rpos: nat, p2: nat)
  {
    && Stream(toks) && pos < p1 < p2 < |toks|
    && toks[pos].kind == LParen && toks[p1] == OperatorToken(op) && toks[p2].kind == RParen
    && Factor(toks, pos + 1) == Parsed(Some(l), p1)
    && rpos == p1 + 1 && Factor(toks, rpos) == Parsed(Some(r), p2)
  }

  /** One parenthesised binary node, given how its operands parse. */
  lemma ParenthesisedBinary(toks: seq<PToken>, pos: nat, op: char, l: Node, r: Node, p1: nat, rpos: nat, p2: nat)
    requires Stream(toks) && op in "+-*/" && BinaryLayout(toks, pos, op, l, r, p1, rpos, p2)
    ensures Factor(toks, pos) == Parsed(Some(BinaryOp(op, Some(l), Some(r))), p2 + 1)
  {
    if op in "*/" {
      BracketedProduct(toks, pos, op, l, r, p1, rpos, p2);
    } else {
      BracketedSum(toks, pos, op, l, r, p1, rpos, p2);
    }
    ParenthesisedFactor(toks, pos, BinaryOp(op, Some(l), Some(r)), p2);
  }

  /** The expression inside `( l * r )` or `( l / r )`. */
  lemma BracketedProduct(toks: seq<PToken>, pos: nat, op: char, l: Node, r: Node, p1: nat, rpos: nat, p2: nat)
    requires Stream(toks) && pos < p1 < p2 < |toks| && op in "*/"
    requires toks[p1] == OperatorToken(op) && !IsAdditive(toks[p2].kind) && !IsMultiplicative(toks[p2].kind)
    requires Factor(toks, pos + 1) == Parsed(Some(l), p1)
    requires rpos == p1 + 1 && Factor(toks, rpos) == Parsed(Some(r), p2)
    ensures Expression(toks, pos + 1) == Parsed(Some(BinaryOp(op, Some(l), Some(r))), p2)
  {
    var e := BinaryOp(op, Some(l), Some(r));
    TermProduct(toks, pos + 1, l, op, rpos, r, p1, p2);
    ExpressionStart(toks, pos + 1, e, p2);
    ExprTailStops(toks, Some(e), p2);
  }

  /** The expression inside `( l + r )` or `( l - r )`. */
  lemma BracketedSum(toks: seq<PToken>, pos: nat, op: char, l: Node, r: Node, p1: nat, rpos: nat, p2: nat)
    requires Stream(toks) && pos < p1 < p2 < |toks| && op in "+-"
    requires toks[p1] == OperatorToken(op) && !IsAdditive(toks[p2].kind) && !IsMultiplicative(toks[p2].kind)
    requires Factor(toks, pos + 1) == Parsed(Some(l), p1)
    requires rpos == p1 + 1 && Factor(toks, rpos) == Parsed(Some(r), p2)
    ensures Expression(toks, pos + 1) == Parsed(Some(BinaryOp(op, Some(l), Some(r))), p2)
  {
    ExprOfFactor(toks, pos + 1, l, p1);
    SumStep(toks, Some(l), p1, op, rpos, r, p2);
    ExprTailStops(toks, Some(BinaryOp(op, Some(l), Some(r))), p2);
  }

  // ---------------------------------------------------------------------------
  // Precedence and associativity

  /** `*` and `/` bind tighter than `+` and `-`. */
  function Precedence(op: char): nat
  {
    if op in "*/" then 2 else 1
  }

  /** The tree `a o1 b o2 c` should give: the tighter operator groups first,
      and between equals the left one does. */
  function Grouped(a: Node, o1: char, b: Node, o2: char, c: Node): Node
  {
    if Precedence(o2) > Precedence(o1) then BinaryOp(o1, Some(a), Some(BinaryOp(o2, Some(b), Some(c))))
    else BinaryOp(o2, Some(BinaryOp(o1, Some(a), Some(b))), Some(c))
  }

  /** The token layout `a o1 b o2 c`, followed by a token that is no operator,
      with each operand a factor parsing to the given node. */
  predicate Chain(toks: seq<PToken>, pos: nat, a: Node, o1: char, b: Node, o2: char, c: Node, pa: nat, qb: nat, pb: nat, qc: nat, pc: nat)
  {
    && Stream(toks) && pos < pa && qb == pa + 1 && qb < pb && qc == pb + 1 && qc < pc < |toks|
    && o1 in "+-*/" && o2 in "+-*/"
    && Factor(toks, pos) == Parsed(Some(a), pa)
    && toks[pa] == OperatorToken(o1)
    && Factor(toks, qb) == Parsed(Some(b), pb)
    && toks[pb] == OperatorToken(o2)
    && Factor(toks, qc) == Parsed(Some(c), pc)
    && !IsAdditive(toks[pc].kind) && !IsMultiplicative(toks[pc].kind)
  }

  lemma ChainAdditiveAdditive(toks: seq<PToken>, pos: nat, a: Node, o1: char, b: Node, o2: char, c: Node, pa: nat, qb: nat, pb: nat, qc: nat, pc: nat)
    requires Chain(toks, pos, a, o1, b, o2, c, pa, qb, pb, qc, pc) && o1 in "+-" && o2 in "+-"
    ensures Expression(toks, pos) == Parsed(Some(Grouped(a, o1, b, o2, c)), pc)
  {
    var ab := BinaryOp(o1, Some(a), Some(b));
    ExprOfFactor(toks, pos, a, pa);
    SumStep(toks, Some(a), pa, o1, qb, b, pb);
    SumStep(toks, Some(ab), pb, o2, qc, c, pc);
    ExprTailStops(toks, Some(BinaryOp(o2, Some(ab), Some(c))), pc);
  }

  lemma ChainMultiplicativeMultiplicative(toks: seq<PToken>, pos: nat, a: Node, o1: char, b: Node, o2: char, c: Node, pa: nat, qb: nat, pb: nat, qc: nat, pc: nat)
    requires Chain(toks, pos, a, o1, b, o2, c, pa, qb, pb, qc, pc) && o1 in "*/" && o2 in "*/"
    ensures Expression(toks, pos) == Parsed(Some(Grouped(a, o1, b, o2, c)), pc)
  {
    var ab := BinaryOp(o1, Some(a), Some(b));
    var abc := Grouped(a, o1, b, o2, c);
    TermStart(toks, pos, a, pa);
    TermTailStep(toks, Some(a), pa, o1, qb, b, pb);
    TermTailStep(toks, Some(ab), pb, o2, qc, c, pc);
    TermTailStops(toks, Some(abc), pc);
    ExpressionStart(toks, pos, abc, pc);
    ExprTailStops(toks, Some(abc), pc);
  }

  lemma ChainAdditiveMultiplicative(toks: seq<PToken>, pos: nat, a: Node, o1: char, b: Node, o2: char, c: Node, pa: nat, qb: nat, pb: nat, qc: nat, pc: nat)
    requires Chain(toks, pos, a, o1, b, o2, c, pa, qb, pb, qc, pc) && o1 in "+-" && o2 in "*/"
    ensures Expression(toks, pos) == Parsed(Some(Grouped(a, o1, b, o2, c)), pc)
  {
    var bc := BinaryOp(o2, Some(b), Some(c));
    ExprOfFactor(toks, pos, a, pa);
    TermProduct(toks, qb, b, o2, qc, c, pb, pc);
    ExprTailStep(toks, Some(a), pa, o1, qb, bc, pc);
    ExprTailStops(toks, Some(BinaryOp(o1, Some(a), Some(bc))), pc);
  }

  lemma ChainMultiplicativeAdditive(toks: seq<PToken>, pos: nat, a: Node, o1: char, b: Node, o2: char, c: Node, pa: nat, qb: nat, pb: nat, qc: nat, pc: nat)
    requires Chain(toks, pos, a, o1, b, o2, c, pa, qb, pb, qc, pc) && o1 in "*/" && o2 in "+-"
    ensures Expression(toks, pos) == Parsed(Some(Grouped(a, o1, b, o2, c)), pc)
  {
    var ab := BinaryOp(o1, Some(a), Some(b));
    TermProduct(toks, pos, a, o1, qb, b, pa, pb);
    ExpressionStart(toks, pos, ab, pb);
    SumStep(toks, Some(ab), pb, o2, qc, c, pc);
    ExprTailStops(toks, Some(BinaryOp(o2, Some(ab), Some(c))), pc);
  }

  /** The tokens `a o1 b o2 c` between `pre` and `post`. */
  function ChainTokens(pre: seq<PToken>, a: Node, o1: char, b: Node, o2: char, c: Node, post: seq<PToken>): seq<PToken>
  {
    pre + Render(a) + [OperatorToken(o1)] + Render(b) + [OperatorToken(o2)] + Render(c) + post
  }

  /** The three ways of cutting `pre + s1 + [t2] + s3 + [t4] + s5 + post`
      around `s1`, `s3` and `s5`, and the tokens at `pa`, `pb` and `pc`. */
  lemma SplitChain(toks: seq<PToken>, pre: seq<PToken>, s1: seq<PToken>, t2: PToken, s3: seq<PToken>, t4: PToken, s5: seq<PToken>, post: seq<PToken>,
                   pos: nat, pa: nat, pb: nat, pc: nat)
    requires toks == pre + s1 + [t2] + s3 + [t4] + s5 + post && |post| > 0
    requires pos == |pre| && pa == pos + |s1| && pb == pa + 1 + |s3| && pc == pb + 1 + |s5|
    ensures toks == pre + s1 + ([t2] + s3 + [t4] + s5 + post)
    ensures toks == (pre + s1 + [t2]) + s3 + ([t4] + s5 + post)
    ensures toks == (pre + s1 + [t2] + s3 + [t4]) + s5 + post
    ensures pc < |toks| && toks[pa] == t2 && toks[pb] == t4 && toks[pc] == post[0]
    ensures |pre + s1 + [t2]| == pa + 1 && |pre + s1 + [t2] + s3 + [t4]| == pb + 1
  {
    assert toks == pre + s1 + ([t2] + s3 + [t4] + s5 + post);
    assert toks == (pre + s1 + [t2]) + s3 + ([t4] + s5 + post);
  }

  /** Where the operands and operators of `a o1 b o2 c` sit: `a` at `pos`, `b`
      at `qb` and `c` at `qc`, the operators at `pa` and `pb`, and the token
      after them at `pc`. */
  lemma ChainPlaced(toks: seq<PToken>, pos: nat, pre: seq<PToken>, a: Node, o1: char, b: Node, o2: char, c: Node, post: seq<PToken>,
                    pa: nat, qb: nat, pb: nat, qc: nat, pc: nat)
    requires Printable(a) && Printable(b) && Printable(c) && |post| > 0
    requires toks == ChainTokens(pre, a, o1, b, o2, c, post) && pos == |pre|
    requires pa == pos + |Render(a)| && qb == pa + 1 && pb == qb + |Render(b)| && qc == pb + 1 && pc == qc + |Render(c)|
    ensures pc < |toks| && toks[pc] == post[0]
    ensures Placed(toks, pos, a) && toks[pa] == OperatorToken(o1)
    ensures Placed(toks, qb, b) && toks[pb] == OperatorToken(o2)
    ensures Placed(toks, qc, c)
  {
    SplitChain(toks, pre, Render(a), OperatorToken(o1), Render(b), OperatorToken(o2), Render(c), post, pos, pa, pb, pc);
    ChainPlacedLeft(toks, pos, pre, a, o1, b, o2, c, post, pa, qb, pb, qc, pc);
    ChainPlacedMiddle(toks, pos, pre, a, o1, b, o2, c, post, pa, qb, pb, qc, pc);
    ChainPlacedRight(toks, pos, pre, a, o1, b, o2, c, post, pa, qb, pb, qc, pc);
  }

  lemma ChainPlacedLeft(toks: seq<PToken>, pos: nat, pre: seq<PToken>, a: Node, o1: char, b: Node, o2: char, c: Node, post: seq<PToken>,
                    pa: nat, qb: nat, pb: nat, qc: nat, pc: nat)
    requires Printable(a) && Printable(b) && Printable(c) && |post| > 0
    requires toks == ChainTokens(pre, a, o1, b, o2, c, post) && pos == |pre|
    requires pa == pos + |Render(a)| && qb == pa + 1 && pb == qb + |Render(b)| && qc == pb + 1 && pc == qc + |Render(c)|
    ensures Placed(toks, pos, a)
  {
    var oa, ob := OperatorToken(o1), OperatorToken(o2);
    SplitChain(toks, pre, Render(a), oa, Render(b), ob, Render(c), post, pos, pa, pb, pc);
    RenderPlaced(toks, pos, pre, a, [oa] + Render(b) + [ob] + Render(c) + post);
  }

  lemma ChainPlacedMiddle(toks: seq<PToken>, pos: nat, pre: seq<PToken>, a: Node, o1: char, b: Node, o2: char, c: Node, post: seq<PToken>,
                    pa: nat, qb: nat, pb: nat, qc: nat, pc: nat)
    requires Printable(a) && Printable(b) && Printable(c) && |post| > 0
    requires toks == ChainTokens(pre, a, o1, b, o2, c, post) && pos == |pre|
    requires pa == pos + |Render(a)| && qb == pa + 1 && pb == qb + |Render(b)| && qc == pb + 1 && pc == qc + |Render(c)|
    ensures Placed(toks, qb, b)
  {
    var oa, ob := OperatorToken(o1), OperatorToken(o2);
    SplitChain(toks, pre, Render(a), oa, Render(b), ob, Render(c), post, pos, pa, pb, pc);
    RenderPlaced(toks, qb, pre + Render(a) + [oa], b, [ob] + Render(c) + post);
  }

  lemma ChainPlacedRight(toks: seq<PToken>, pos: nat, pre: seq<PToken>, a: Node, o1: char, b: Node, o2: char, c: Node, post: seq<PToken>,
                    pa: nat, qb: nat, pb: nat, qc: nat, pc: nat)
    requires Printable(a) && Printable(b) && Printable(c) && |post| > 0
    requires toks == ChainTokens(pre, a, o1, b, o2, c, post) && pos == |pre|
    requires pa == pos + |Render(a)| && qb == pa + 1 && pb == qb + |Render(b)| && qc == pb + 1 && pc == qc + |Render(c)|
    ensures Placed(toks, qc, c)
  {
    var oa, ob := OperatorToken(o1), OperatorToken(o2);
    SplitChain(toks, pre, Render(a), oa, Render(b), ob, Render(c), post, pos, pa, pb, pc);
    RenderPlaced(toks, qc, pre + Render(a) + [oa] + Render(b) + [ob], c, post);
  }

  /** The operands of a placed `a o1 b o2 c` parse as factors. */
  lemma ChainFactors(toks: seq<PToken>, pos: nat, a: Node, o1: char, b: Node, o2: char, c: Node, pa: nat, qb: nat, pb: nat, qc: nat, pc: nat)
    requires Stream(toks) && Printable(a) && Printable(b) && Printable(c) && o1 in "+-*/" && o2 in "+-*/"
    requires pa == pos + |Render(a)| && qb == pa + 1 && pb == qb + |Render(b)| && qc == pb + 1 && pc == qc + |Render(c)| && pc < |toks|
    requires Placed(toks, pos, a) && toks[pa] == OperatorToken(o1)
    requires Placed(toks, qb, b) && toks[pb] == OperatorToken(o2)
    requires Placed(toks, qc, c)
    requires !IsAdditive(toks[pc].kind) && !IsMultiplicative(toks[pc].kind)
    ensures Chain(toks, pos, a, o1, b, o2, c, pa, qb, pb, qc, pc)
  {
    FactorParsesPlaced(toks, pos, a);
    FactorParsesPlaced(toks, qb, b);
    FactorParsesPlaced(toks, qc, c);
    ChainOfFactors(toks, pos, a, o1, b, o2, c, pa, qb, pb, qc, pc);
  }

  /** Three factors separated by two operators make a chain. */
  lemma ChainOfFactors(toks: seq<PToken>, pos: nat, a: Node, o1: char, b: Node, o2: char, c: Node, pa: nat, qb: nat, pb: nat, qc: nat, pc: nat)
    requires Stream(toks) && o1 in "+-*/" && o2 in "+-*/"
    requires pos < pa && qb == pa + 1 && qb < pb && qc == pb + 1 && qc < pc < |toks|
    requires Factor(toks, pos) == Parsed(Some(a), pa) && toks[pa] == OperatorToken(o1)
    requires Factor(toks, qb) == Parsed(Some(b), pb) && toks[pb] == OperatorToken(o2)
    requires Factor(toks, qc) == Parsed(Some(c), pc)
    requires !IsAdditive(toks[pc].kind) && !IsMultiplicative(toks[pc].kind)
    ensures Chain(toks, pos, a, o1, b, o2, c, pa, qb, pb, qc, pc)
  {
  }

  /** The four ways two operators can meet. */
  lemma ChainGroups(toks: seq<PToken>, pos: nat, a: Node, o1: char, b: Node, o2: char, c: Node, pa: nat, qb: nat, pb: nat, qc: nat, pc: nat)
    requires Chain(toks, pos, a, o1, b, o2, c, pa, qb, pb, qc, pc)
    ensures Expression(toks, pos) == Parsed(Some(Grouped(a, o1, b, o2, c)), pc)
  {
    if o1 in "+-" && o2 in "+-" {
      ChainAdditiveAdditive(toks, pos, a, o1, b, o2, c, pa, qb, pb, qc, pc);
    } else if o1 in "*/" && o2 in "*/" {
      ChainMultiplicativeMultiplicative(toks, pos, a, o1, b, o2, c, pa, qb, pb, qc, pc);
    } else if o1 in "+-" {
      ChainAdditiveMultiplicative(toks, pos, a, o1, b, o2, c, pa, qb, pb, qc, pc);
    } else {
      ChainMultiplicativeAdditive(toks, pos, a, o1, b, o2, c, pa, qb, pb, qc, pc);
    }
  }

  /** Precedence and left associativity: for printable operands and any two of
      `+ - * /`, the tokens of `a o1 b o2 c`, whatever precedes them and
      followed by a token that is no operator, parse to `Grouped(a, o1, b, o2, c)`,
      and the cursor stops right after them. */
  lemma ThreeOperands(pre: seq<PToken>, a: Node, o1: char, b: Node, o2: char, c: Node, post: seq<PToken>)
    requires Printable(a) && Printable(b) && Printable(c) && o1 in "+-*/" && o2 in "+-*/"
    requires |post| > 0 && !IsAdditive(post[0].kind) && !IsMultiplicative(post[0].kind)
    requires Stream(ChainTokens(pre, a, o1, b, o2, c, post))
    ensures Expression(ChainTokens(pre, a, o1, b, o2, c, post), |pre|) ==
            Parsed(Some(Grouped(a, o1, b, o2, c)), |pre| + |Render(a)| + |Render(b)| + |Render(c)| + 2)
  {
    var pa := |pre| + |Render(a)|;
    var pb := pa + 1 + |Render(b)|;
    var pc := pb + 1 + |Render(c)|;
    var qb, qc := pa + 1, pb + 1;
    var toks := ChainTokens(pre, a, o1, b, o2, c, post);
    ChainPlaced(toks, |pre|, pre, a, o1, b, o2, c, post, pa, qb, pb, qc, pc);
    ChainFactors(toks, |pre|, a, o1, b, o2, c, pa, qb, pb, qc, pc);
    ChainGroups(toks, |pre|, a, o1, b, o2, c, pa, qb, pb, qc, pc);
  }

  // ---------------------------------------------------------------------------
  // Factors

  /** A parenthesised expression is its inner node, unchanged; the factor is
      NULL exactly when the inner expression is NULL or no ')' follows it. */
  lemma ParenthesesKeepInner(toks: seq<PToken>, pos: nat)
    requires Stream(toks) && pos < |toks| && toks[pos].kind == LParen
    ensures pos + 1 < |toks|
    ensures var inner := Expression(toks, pos + 1);
            && (Factor(toks, pos).node.Some? <==> inner.node.Some? && toks[inner.next].kind == RParen)
            && (Factor(toks, pos).node.Some? ==> Factor(toks, pos) == Parsed(inner.node, inner.next + 1))
            && (Factor(toks, pos).node.None? ==> Factor(toks, pos).next == inner.next)
  {
  }

  /** An identifier in factor position is a Variable and stays the current
      token, so an expression that is a lone variable consumes nothing. */
  lemma VariableNotConsumed(toks: seq<PToken>, pos: nat)
    requires Stream(toks) && pos < |toks| && toks[pos].kind == Identifier
    ensures Factor(toks, pos) == Parsed(Some(Variable(toks[pos].lexeme)), pos)
    ensures Expression(toks, pos) == Parsed(Some(Variable(toks[pos].lexeme)), pos)
  {
    assert Term(toks, pos) == Parsed(Some(Variable(toks[pos].lexeme)), pos);
  }

  /** `+ 1`: a missing left operand is not an error; the binary node keeps a
      NULL left child. */
  lemma MissingLeftOperand()
    ensures var toks := [PToken(Plus, "+", 0), PToken(Int, "1", 1), PToken(Eof, "", 0)];
            Expression(toks, 0) == Parsed(Some(BinaryOp('+', None, Some(Literal(1)))), 2)
  {
    var toks := [PToken(Plus, "+", 0), PToken(Int, "1", 1), PToken(Eof, "", 0)];
    assert Factor(toks, 0) == Parsed(None, 0);
    assert Term(toks, 1) == Parsed(Some(Literal(1)), 2);
  }

  // ---------------------------------------------------------------------------
  // Statements

  /** `x : T` with no '=' after the type is a Declaration without a value. */
  lemma DeclarationWithoutValue(toks: seq<PToken>, pos: nat)
    requires Stream(toks) && pos + 3 < |toks|
    requires toks[pos].kind == Identifier && toks[pos + 1].kind == Colon
    requires toks[pos + 2].kind != Eof && toks[pos + 3].kind != Equal
    ensures AssignmentStatement(toks, pos) ==
            Parsed(Some(Declaration(toks[pos].lexeme, toks[pos + 2].lexeme, None)), pos + 3)
  {
  }

  /** `x : T = e` is a Declaration holding `e`, or NULL when `e` is. */
  lemma DeclarationWithValue(toks: seq<PToken>, pos: nat)
    requires Stream(toks) && pos + 4 < |toks|
    requires toks[pos].kind == Identifier && toks[pos + 1].kind == Colon
    requires toks[pos + 2].kind != Eof && toks[pos + 3].kind == Equal
    ensures var e := Expression(toks, pos + 4);
            AssignmentStatement(toks, pos) ==
            if e.node.None? then Parsed(None, e.next)
            else Parsed(Some(Declaration(toks[pos].lexeme, toks[pos + 2].lexeme, e.node)), e.next)
  {
  }

  /** `x = e` is an Assignment holding `e`, or NULL when `e` is. */
  lemma AssignmentWithValue(toks: seq<PToken>, pos: nat)
    requires Stream(toks) && pos + 2 < |toks|
    requires toks[pos].kind == Identifier && toks[pos + 1].kind == Equal
    ensures var e := Expression(toks, pos + 2);
            AssignmentStatement(toks, pos) ==
            if e.node.None? then Parsed(None, e.next)
            else Parsed(Some(Assignment(toks[pos].lexeme, e.node)), e.next)
  {
  }

  /** An identifier followed by neither ':' nor '=' is an error, reported after
      consuming the identifier. */
  lemma AssignmentNeedsColonOrEqual(toks: seq<PToken>, pos: nat)
    requires Stream(toks) && pos < |toks| && toks[pos].kind == Identifier
    requires var p := Advance(toks, pos); toks[p].kind != Colon && toks[p].kind != Equal
    ensures AssignmentStatement(toks, pos) == Parsed(None, Advance(toks, pos))
  {
  }

  /** The EOL ending a statement is consumed, and only that one: with `s` the
      assignment or expression the statement starts with, the cursor moves one
      past `s` exactly when an EOL follows it. */
  lemma StatementConsumesEol(toks: seq<PToken>, pos: nat)
    requires Stream(toks) && pos < |toks|
    ensures var s := if toks[pos].kind == Identifier then AssignmentStatement(toks, pos) else Expression(toks, pos);
            && Statement(toks, pos).node == s.node
            && (toks[s.next].kind == Eol ==> Statement(toks, pos).next == s.next + 1)
            && (toks[s.next].kind != Eol ==> Statement(toks, pos).next == s.next)
  {
  }

  // ---------------------------------------------------------------------------
  // The program

  /** One round of the `parse_root` loop, at a statement. */
  lemma RootStep(toks: seq<PToken>, pos: nat, acc: seq<Node>)
    requires Stream(toks) && pos < |toks| && toks[pos].kind != Eof
    requires toks[SkipEols(toks, pos)].kind != Eof
    ensures var s := Statement(toks, SkipEols(toks, pos));
            Root(toks, pos, acc) == if s.node.None? then None else Root(toks, s.next, acc + [s.node.value])
  {
  }

  /** The statements collected before `pos` stay in front, in order: running
      `parse_root` with `acc` already collected is running it from scratch and
      putting `acc` first. */
  lemma {:induction false} RootAccumulates(toks: seq<PToken>, pos: nat, acc: seq<Node>)
    requires Stream(toks) && pos < |toks|
    ensures Root(toks, pos, acc) ==
            if Root(toks, pos, []).Some? then Some(acc + Root(toks, pos, []).value) else None
    decreases |toks| - pos
  {
    if toks[pos].kind == Eof || toks[SkipEols(toks, pos)].kind == Eof {
      assert acc + [] == acc;
    } else {
      var s := Statement(toks, SkipEols(toks, pos));
      RootStep(toks, pos, acc);
      RootStep(toks, pos, []);
      if s.node.Some? {
        var n := s.node.value;
        assert [] + [n] == [n];
        RootAccumulates(toks, s.next, acc + [n]);
        RootAccumulates(toks, s.next, [n]);
        PrependCollected(Root(toks, s.next, acc + [n]), Root(toks, s.next, [n]), Root(toks, s.next, []), acc, n);
      }
    }
  }

  /** The list algebra of one `RootAccumulates` step: with `rest` the statements
      after `n`, collecting them after `acc + [n]` is collecting them after
      `[n]` and putting `acc` first. */
  lemma PrependCollected(a: Option<seq<Node>>, b: Option<seq<Node>>, rest: Option<seq<Node>>, acc: seq<Node>, n: Node)
    requires a == if rest.Some? then Some(acc + [n] + rest.value) else None
    requires b == if rest.Some? then Some([n] + rest.value) else None
    ensures a == if b.Some? then Some(acc + b.value) else None
  {
    if rest.Some? {
      assert acc + [n] + rest.value == acc + ([n] + rest.value);
    }
  }

  /** Empty lines are skipped: an EOL before a statement changes nothing. */
  lemma RootSkipsEol(toks: seq<PToken>, pos: nat, acc: seq<Node>)
    requires Stream(toks) && pos < |toks| && toks[pos].kind == Eol
    ensures pos + 1 < |toks|
    ensures Root(toks, pos, acc) == Root(toks, pos + 1, acc)
  {
  }

  /** Statements come out in source order, and the program is NULL exactly when
      one of its statements is: at a statement, the program is that statement
      followed by the program after it. */
  lemma RootInOrder(toks: seq<PToken>, pos: nat)
    requires Stream(toks) && pos < |toks| && toks[pos].kind != Eol && toks[pos].kind != Eof
    ensures var s := Statement(toks, pos);
            && (Root(toks, pos, []).Some? <==> s.node.Some? && Root(toks, s.next, []).Some?)
            && (Root(toks, pos, []).Some? ==> Root(toks, pos, []).value == [s.node.value] + Root(toks, s.next, []).value)
  {
    var s := Statement(toks, pos);
    RootStep(toks, pos, []);
    if s.node.Some? {
      assert [] + [s.node.value] == [s.node.value];
      RootAccumulates(toks, s.next, [s.node.value]);
    }
  }

  /** An end of file, possibly after empty lines, ends the program with every
      statement collected so far. */
  lemma RootStopsAtEof(toks: seq<PToken>, pos: nat, acc: seq<Node>)
    requires Stream(toks) && pos < |toks|
    requires forall k | pos <= k < |toks| - 1 :: toks[k].kind == Eol
    ensures Root(toks, pos, acc) == Some(acc)
  {
  }

  /** The tokens of `x : int = 1 + 2 * 3`, an empty line, then `y = 4`. */
  predicate ExampleTokens(toks: seq<PToken>)
  {
    && |toks| == 15
    && toks[0] == PToken(Identifier, "x", 0) && toks[1] == PToken(Colon, ":", 0)
    && toks[2] == PToken(Identifier, "int", 0) && toks[3] == PToken(Equal, "=", 0)
    && toks[4] == PToken(Int, "1", 1) && toks[5] == PToken(Plus, "+", 0)
    && toks[6] == PToken(Int, "2", 2) && toks[7] == PToken(Star, "*", 0)
    && toks[8] == PToken(Int, "3", 3) && toks[9] == PToken(Eol, "", 0)
    && toks[10] == PToken(Eol, "", 0) && toks[11] == PToken(Identifier, "y", 0)
    && toks[12] == PToken(Equal, "=", 0) && toks[13] == PToken(Int, "4", 4)
    && toks[14] == PToken(Eof, "", 0)
  }

  /** The first statement: the product groups first, and the EOL ending the
      line is consumed. */
  lemma ExampleDeclaration(toks: seq<PToken>)
    requires ExampleTokens(toks)
    ensures Statement(toks, 0) ==
            Parsed(Some(Declaration("x", "int", Some(BinaryOp('+', Some(Literal(1)),
                   Some(BinaryOp('*', Some(Literal(2)), Some(Literal(3)))))))), 10)
  {
    ExampleDeclarationBody(toks);
    StatementConsumesEol(toks, 0);
  }

  /** The declaration itself, up to the EOL that ends its line. */
  lemma ExampleDeclarationBody(toks: seq<PToken>)
    requires ExampleTokens(toks)
    ensures AssignmentStatement(toks, 0) ==
            Parsed(Some(Declaration("x", "int", Some(BinaryOp('+', Some(Literal(1)),
                   Some(BinaryOp('*', Some(Literal(2)), Some(Literal(3)))))))), 9)
  {
    ExampleValue(toks);
    DeclarationWithValue(toks, 0);
  }

  /** The value `1 + 2 * 3` of the first statement. */
  lemma ExampleValue(toks: seq<PToken>)
    requires ExampleTokens(toks)
    ensures Expression(toks, 4) == Parsed(Some(BinaryOp('+', Some(Literal(1)), Some(BinaryOp('*', Some(Literal(2)), Some(Literal(3)))))), 9)
  {
    LiteralFactor(toks, 4);
    LiteralFactor(toks, 6);
    LiteralFactor(toks, 8);
    ChainAdditiveMultiplicative(toks, 4, Literal(1), '+', Literal(2), '*', Literal(3), 5, 6, 7, 8, 9);
  }

  /** The second statement, after the empty line. */
  lemma ExampleAssignment(toks: seq<PToken>)
    requires ExampleTokens(toks)
    ensures SkipEols(toks, 10) == 11
    ensures Statement(toks, 11) == Parsed(Some(Assignment("y", Some(Literal(4)))), 14)
  {
    LiteralFactor(toks, 13);
    assert Term(toks, 13) == Parsed(Some(Literal(4)), 14);
    AssignmentWithValue(toks, 11);
  }

  /** The whole program: both statements, in order. */
  lemma ExampleProgram(toks: seq<PToken>)
    requires ExampleTokens(toks)
    ensures ParseProgram(toks) == Some([
              Declaration("x", "int", Some(BinaryOp('+', Some(Literal(1)),
                                             Some(BinaryOp('*', Some(Literal(2)), Some(Literal(3))))))),
              Assignment("y", Some(Literal(4)))])
  {
    var decl := Declaration("x", "int", Some(BinaryOp('+', Some(Literal(1)),
                  Some(BinaryOp('*', Some(Literal(2)), Some(Literal(3)))))));
    ExampleDeclaration(toks);
    RootStep(toks, 0, []);
    assert [] + [decl] == [decl];
    ExampleSecondLine(toks, [decl]);
    assert [decl] + [Assignment("y", Some(Literal(4)))] == [decl, Assignment("y", Some(Literal(4)))];
  }

  /** From the end of the first line on, `parse_root` adds the assignment to
      whatever it collected before. */
  lemma ExampleSecondLine(toks: seq<PToken>, acc: seq<Node>)
    requires ExampleTokens(toks)
    ensures Root(toks, 10, acc) == Some(acc + [Assignment("y", Some(Literal(4)))])
  {
    ExampleAssignment(toks);
    RootStep(toks, 10, acc);
  }

  /** `y = x`: the variable `x` is left as the current token, so `parse_root`
      reads it as the start of a second statement, which has neither ':' nor
      '=' after it, and the whole program is NULL. */
  lemma VariableReferenceFails()
    ensures ParseProgram([PToken(Identifier, "y", 0), PToken(Equal, "=", 0),
                          PToken(Identifier, "x", 0), PToken(Eof, "", 0)]) == None
  {
    var toks := [PToken(Identifier, "y", 0), PToken(Equal, "=", 0),
                 PToken(Identifier, "x", 0), PToken(Eof, "", 0)];
    VariableNotConsumed(toks, 2);
    assert Statement(toks, 0) == Parsed(Some(Assignment("y", Some(Variable("x")))), 2);
    assert Statement(toks, 2) == Parsed(None, 3);
  }

  /** `parse_factor` rejects every token that starts no factor: the result is
      NULL and the token stays current. */
  lemma FactorRejects(toks: seq<PToken>, pos: nat)
    requires Stream(toks) && pos < |toks|
    ensures StartsFactor(toks[pos].kind) || Factor(toks, pos) == Parsed(None, pos)
  {
  }

  /** Where an expression starts with a token that can start no factor and is
      no binary operator, the expression is NULL and consumes nothing: the
      NULL of `parse_factor` passes unchanged through both operator loops. */
  lemma UnexpectedTokenFails(toks: seq<PToken>, pos: nat)
    requires Stream(toks) && pos < |toks|
    requires !StartsFactor(toks[pos].kind)
    requires !IsAdditive(toks[pos].kind) && !IsMultiplicative(toks[pos].kind)
    ensures Factor(toks, pos) == Parsed(None, pos)
    ensures Term(toks, pos) == Parsed(None, pos)
    ensures Expression(toks, pos) == Parsed(None, pos)
  {
    FactorRejects(toks, pos);
    assert Term(toks, pos) == Parsed(None, pos);
  }
}

=== FILE: render.dfy ===
/** Fully parenthesised expression trees and the tokens that spell them: the
    inputs on which the parser's treatment of operators is stated. */
module Rendering {
  import opened Wrappers
  import opened Lexer
  import opened Parser

  /** The token kind of an operator character. */
  function OperatorKind(c: char): TokenKind
  {
    match c
    case '+' => Plus
    case '-' => Minus
    case '*' => Star
    case '/' => Slash
    case _ => Bang
  }

  function OperatorToken(c: char): PToken
  {
    PToken(OperatorKind(c), [c], 0)
  }

  /** The trees `Render` writes out: literals, binary `+ - * /` nodes with both
      operands present, and unary `-`/`!` nodes with their operand present. */
  predicate Printable(e: Node)
  {
    match e
    case Literal(_) => true
    case BinaryOp(op, l, r) =>
      op in "+-*/" && l.Some? && r.Some? && Printable(l.value) && Printable(r.value)
    case UnaryOp(op, x) => op in "-!" && x.Some? && Printable(x.value)
    case _ => false
  }

  /** The token sequence of a tree, every binary node in parentheses. */
  function Render(e: Node): seq<PToken>
  {
    match e
    case Literal(v) => [PToken(Int, "", v)]
    case BinaryOp(op, Some(l), Some(r)) =>
      [PToken(LParen, "(", 0)] + Render(l) + [OperatorToken(op)] + Render(r) + [PToken(RParen, ")", 0)]
    case UnaryOp(op, Some(x)) => [OperatorToken(op)] + Render(x)
    case _ => []
  }

  /** Where the tokens of a tree sit when it is rendered at `pos`. */
  predicate Placed(toks: seq<PToken>, pos: nat, e: Node)
    decreases e
  {
    match e
    case Literal(v) => pos < |toks| && toks[pos] == PToken(Int, "", v)
    case UnaryOp(op, Some(x)) => pos < |toks| && toks[pos] == OperatorToken(op) && Placed(toks, pos + 1, x)
    case BinaryOp(op, Some(l), Some(r)) =>
      var p1 := pos + 1 + |Render(l)|;
      var p2 := p1 + 1 + |Render(r)|;
      && p2 < |toks| && toks[pos] == PToken(LParen, "(", 0) && Placed(toks, pos + 1, l)
      && toks[p1] == OperatorToken(op) && Placed(toks, p1 + 1, r) && toks[p2] == PToken(RParen, ")", 0)
    case _ => false
  }

  /** A binary node is placed where its brackets and operator are, with its
      operands placed between them; the right operand starts at `q`. */
  lemma PlacedBinary(toks: seq<PToken>, pos: nat, op: char, l: Node, r: Node, q: nat)
    requires pos + 1 + |Render(l)| + 1 + |Render(r)| < |toks| && q == pos + 1 + |Render(l)| + 1
    requires toks[pos] == PToken(LParen, "(", 0) && Placed(toks, pos + 1, l)
    requires toks[pos + 1 + |Render(l)|] == OperatorToken(op) && Placed(toks, q, r)
    requires toks[pos + 1 + |Render(l)| + 1 + |Render(r)|] == PToken(RParen, ")", 0)
    ensures Placed(toks, pos, BinaryOp(op, Some(l), Some(r)))
  {
  }

  /** The parts of a placed binary node, with `q` where its right operand starts. */
  lemma PlacedBinaryParts(toks: seq<PToken>, pos: nat, op: char, l: Node, r: Node, q: nat)
    requires Placed(toks, pos, BinaryOp(op, Some(l), Some(r))) && q == pos + 1 + |Render(l)| + 1
    ensures q + |Render(r)| < |toks| && toks[pos] == PToken(LParen, "(", 0) && Placed(toks, pos + 1, l)
    ensures toks[pos + 1 + |Render(l)|] == OperatorToken(op) && Placed(toks, q, r) && toks[q + |Render(r)|] == PToken(RParen, ")", 0)
  {
  }
}

=== FILE: wrappers.dfy ===
/** Optional values and results shared by the collector, lexer and parser models.
    `None` stands for a C NULL pointer; `Result` carries the fatal errors that the
    C code reports with `exit(1)`. */
module Wrappers {

  datatype Option<+T> = None | Some(value: T)

  datatype Result<+R, +E> = Success(value: R) | Failure(error: E)
}
